=== FILE: README.md ===
# Step 6 of Linkage Mapper: barrier detection, as a Dafny model

Step 6 (`STEP6_calc_barriers` in `toolbox/scripts/s6_barriers.py`) looks for barriers:
places where restoring the landscape would most shorten the least-cost corridors
between habitat cores. For every detection radius it does four things.

- It visits the rows of the link table. Each corridor link, meaning a row whose type
  lies strictly between 0 and 1000, gets a restoration-gain raster
  `(d - f1 - f2 - 2r) / 2r`. Here `d` is the link's cost-weighted distance and `f1`,
  `f2` are the two cores' focal-minimum rasters.
- It folds those rasters into a running MAXIMUM mosaic.
- It temporarily disables later rows that join the same two cores, so that a pair is
  mosaicked once per radius.
- It masks negative gains, grows the mosaic by a circular focal maximum, and trims
  the result by the resistance surface.

Across radii it builds three summary mosaics. It also keeps a counter that opens a
new output folder every 100 saved rasters.

The project models:

- the radius schedule and its guard (`radii.dfy`);
- the link table and the source's dedup pass. The pass adds 1000 to a duplicate's type
  and later subtracts 1000 from every type above 1000. It is given as a functional
  reference (`links.dfy`) and as the in-place loop the source runs (`link_pass.dfy`);
- the dedup pass as its comments describe it: disabled rows are kept apart from the
  types (`dedup.dfy`);
- the folder counter and the focal sub-folder numbers (`shards.dfy`);
- the per-cell raster algebra: gain, MAXIMUM mosaic, `SetNull`, trim (`pixels.dfy`);
- the mosaic fold as a cellwise maximum (`mosaic.dfy`);
- the whole run with its three error exits (`engine.dfy`).

Rasters are sequences of cells, and a cell is `Option<real>`, with `None` for NoData.
The raster tools the step calls become functions in an `Env` value:

- the focal-minimum raster of a core at a radius;
- the link distance of a core pair;
- the circular grow.

The restore at lines 272-274 lowers only types strictly above 1000, so a disabled
duplicate of type 0 ends the radius at type 1000 (`Links.ZeroTypeEndsAtMark`).

Where the source's dedup pass departs from its stated purpose (see Findings), the run
model `Engine.Run` uses the intended pass `Dedup.IntendedPass`. The lemmas
`Dedup.IntendedPassAgrees` and `Dedup.CarriedAgrees` show that the two passes process
the same rows on one table whenever no type is negative. They also show that, for a
loaded table with types in 0..1000, the source's pass at every radius processes the
intended rows. Here the source's pass runs on the table the earlier radii carried
over (`Dedup.Carried`).

## Model

| member | source | states |
|---|---|---|
| Radii.Normalize | toolbox/scripts/s6_barriers.py:43-48 | the start radius is kept; a zero step becomes step 1 with end radius equal to start; any other step keeps the configured end radius and step; start and end coincide afterwards exactly when the step was zero or they were equal |
| Radii.PyRange | toolbox/scripts/s6_barriers.py:138 | Python `range` for a non-zero step: starts at `start`, stays strictly on the near side of `stop`, is empty exactly when `stop` is not beyond `start` in the step's direction, and ends within one step of `stop`; strictly increasing for a positive step and strictly decreasing for a negative one |
| Radii.PyRangeAt | toolbox/scripts/s6_barriers.py:138 | value i of a range is start + i * step, for either sign of the step |
| Radii.Schedule | toolbox/scripts/s6_barriers.py:138 | the radii visited: one radius for a zero step; increasing values between start and end radius for a positive step; nothing for a negative step once start <= end |
| Radii.RangeMembership | toolbox/scripts/s6_barriers.py:138 | a value is in a positive-step range iff it lies in `[start, stop)` and is a whole number of steps from `start` |
| Radii.ScheduleMembership | toolbox/scripts/s6_barriers.py:138 | for a positive step, a radius is visited iff it lies between start and end radius and is a whole number of steps from the start |
| Radii.EndRadiusIncluded | toolbox/scripts/s6_barriers.py:138 | the end radius itself is visited iff end - start is a non-negative multiple of the step |
| Radii.Rejected | toolbox/scripts/s6_barriers.py:68-72 | the run is refused iff the cell size exceeds the start radius, or the step is non-zero and the start radius exceeds the end radius |
| Radii.AcceptedRadiiAtLeastCellSize | toolbox/scripts/s6_barriers.py:68-72 | once the guard passes, every visited radius is at least the cell size |
| Links.SortPair | toolbox/scripts/s6_barriers.py:132-133 | the two cores in ascending order, the same two numbers |
| Links.SameCoresIffCanon | toolbox/scripts/s6_barriers.py:253-258 | the duplicate test holds iff the sorted pairs agree, so it is an equivalence |
| Links.SwappedBranchOnSortedPairs | toolbox/scripts/s6_barriers.py:256-258 | on sorted pairs the swapped-order branch only fires on a pair the same-order branch already matched |
| Links.CoreList | toolbox/scripts/s6_barriers.py:132-133 | one sorted pair per row, joining that row's two cores |
| Links.CountActive | toolbox/scripts/s6_barriers.py:76-80 | the corridor-link count is zero iff no row's type lies in 1..999 |
| Links.VisitMarksDuplicates | toolbox/scripts/s6_barriers.py:250-258 | visiting an inactive row changes nothing; visiting an active row adds exactly 1000 to every later row with the same cores, in either order, and changes no other row |
| Links.ScanAddsOverlays | toolbox/scripts/s6_barriers.py:147-258 | the scan of a radius only ever adds whole multiples of 1000 to a type |
| Links.RestoreType | toolbox/scripts/s6_barriers.py:272-274 | a type of at most 1000 is kept and a type above 1000 loses exactly 1000; the result is at most 1000 iff the type was at most 2000; positive and non-negative types stay so |
| Links.Restore | toolbox/scripts/s6_barriers.py:272-274 | the table-wide restore: rows at most 1000 are kept, rows above 1000 lose exactly 1000, a row ends at most 1000 iff it was at most 2000, and no non-negative row turns negative |
| Links.Pass | toolbox/scripts/s6_barriers.py:138-274 | one radius keeps the table's length and processes rows in increasing table order, a row being processed iff its type is active when the scan reaches it |
| Links.PassKeepsNonNegative | toolbox/scripts/s6_barriers.py:250-274 | a pass never makes a non-negative type negative |
| Links.Processed | toolbox/scripts/s6_barriers.py:147-153 | the processed rows in increasing order, a row being processed iff its type is active when the scan reaches it |
| Links.ScanSettles | toolbox/scripts/s6_barriers.py:250 | visiting a row never changes that row or any earlier row |
| Links.ScanMarksOnce | toolbox/scripts/s6_barriers.py:250-258 | with non-negative types a row carries exactly one +1000 iff an earlier active row has its cores |
| Links.ProcessedIsFirstOfPair | toolbox/scripts/s6_barriers.py:147-258 | with non-negative types a row is processed iff it is the first active row of its core pair |
| Links.PassRestores | toolbox/scripts/s6_barriers.py:248-274 | overlay round trip: types 1..1000 come back; a marked type 0 ends at 1000; a type above 1000 loses 1000 unless it was marked |
| Links.ProcessedRowsAreFirstOfPair | toolbox/scripts/s6_barriers.py:147-258 | with non-negative types the processed rows are exactly the first active rows of their pairs, in table order |
| Links.FirstRowsDistinct | toolbox/scripts/s6_barriers.py:248-258 | no two first active rows share their cores |
| Links.ProcessedPairsDistinct | toolbox/scripts/s6_barriers.py:248-258 | with non-negative types no core pair is mosaicked twice in one radius |
| Links.FirstOfPairExists | toolbox/scripts/s6_barriers.py:147-153 | every active row shares its cores with a first active row at or before it |
| Links.FirstRowsCount | toolbox/scripts/s6_barriers.py:153 | there are as many first active rows as distinct unordered core pairs among active rows |
| Links.ProcessedCount | toolbox/scripts/s6_barriers.py:153 | with non-negative types `linkLoop` ends at the number of distinct unordered core pairs among corridor links |
| Links.FirstActiveRowKept | toolbox/scripts/s6_barriers.py:147-274 | the first active row is always processed and keeps its type |
| Links.PassKeepsActiveRow | toolbox/scripts/s6_barriers.py:147-274 | a table with a corridor link processes at least one link and still has a corridor link afterwards |
| Links.SameActivitySameProcessed | toolbox/scripts/s6_barriers.py:147-258 | with non-negative types the processed rows depend only on which rows are active |
| Links.PassStable | toolbox/scripts/s6_barriers.py:138-274 | on types in 0..1000 a pass keeps that range and every row's activity, so the next radius processes the same rows |
| Links.NegativeTypeLifted | toolbox/scripts/s6_barriers.py:250-274 | types [1, -1] on one core pair: both rows are processed and the second ends at 999 |
| Links.ZeroTypeEndsAtMark | toolbox/scripts/s6_barriers.py:272-274 | a duplicate of type 0 ends the radius at type 1000 |
| Dedup.PickedMembers | toolbox/scripts/s6_barriers.py:147-258 | a row is processed iff it is active and not disabled when the scan reaches it |
| Dedup.DisabledIsCovered | toolbox/scripts/s6_barriers.py:248-258 | a row is disabled iff an earlier active row has the same cores |
| Dedup.IntendedPass | toolbox/scripts/s6_barriers.py:147-258 | for any types, a radius processes exactly the first active row of each core pair, in table order |
| Dedup.PickedAreFirstRows | toolbox/scripts/s6_barriers.py:147-258 | a row is picked iff it is the first active row of its core pair |
| Dedup.IntendedPassDedups | toolbox/scripts/s6_barriers.py:248-258 | for any types, no two processed rows share cores, and one row per distinct active core pair is processed |
| Dedup.IntendedPassNonEmpty | toolbox/scripts/s6_barriers.py:144-153 | a table with a corridor link processes at least one row |
| Dedup.IntendedPassAgrees | toolbox/scripts/s6_barriers.py:248-274 | with non-negative types the source's overlay pass processes the same rows as the intended pass |
| Dedup.CodeAgreesOnWellFormed | toolbox/scripts/s6_barriers.py:138-274 | on types in 0..1000 the overlay pass agrees with the intended pass and leaves a table on which they agree again |
| Dedup.CarriedWellFormed | toolbox/scripts/s6_barriers.py:138-274 | from a loaded table with types in 0..1000, the table carried to every radius has types in 0..1000 |
| Dedup.CarriedStable | toolbox/scripts/s6_barriers.py:138-274 | from a loaded table with types in 0..1000, the intended pass processes the same rows on the table carried to any radius |
| Dedup.CarriedAgrees | toolbox/scripts/s6_barriers.py:138-274 | from a loaded table with types in 0..1000, the source's pass at radius i, on the table carried to it, processes the intended rows of the loaded table |
| Dedup.DisabledDuplicateSkipped | toolbox/scripts/s6_barriers.py:250-258 | types [1, -1] on one pair: the intended pass processes row 0 only, the overlay pass rows 0 and 1 |
| Dedup.DisabledDuplicateSecondRadius | toolbox/scripts/s6_barriers.py:138-274 | types [1, -1] on one pair: the source carries [1, 999] to the second radius, where it processes row 0 only |
| Dedup.DuplicateOfCorridorLinkSkipped | toolbox/scripts/s6_barriers.py:147-258 | types [1, 999] on one pair: the first row disables the second, so only row 0 is processed |
| Dedup.HighTypeActivatedNextRadius | toolbox/scripts/s6_barriers.py:272-274 | a row loaded with type 1500 is never processed by the intended pass; the restore lowers it to 500 and the next radius processes it |
| LinkPass.DisableDuplicates | toolbox/scripts/s6_barriers.py:250-258 | the in-place inner loop leaves the table as one visit of the row prescribes |
| LinkPass.RestoreRows | toolbox/scripts/s6_barriers.py:272-274 | every type above 1000 loses 1000, every other is unchanged |
| LinkPass.ScanRows | toolbox/scripts/s6_barriers.py:147-258 | the in-place scan yields the functional scan's table and processed rows |
| LinkPass.CountLinks | toolbox/scripts/s6_barriers.py:260-270 | the loop's counter is `linkLoop` link updates; from a folder that is not full, the folder stays below 100 and `linkLoop` more rasters are accounted for when saved, none when not; from the start it is at folder `linkLoop div 100` holding `linkLoop mod 100` |
| LinkPass.RadiusPass | toolbox/scripts/s6_barriers.py:139-274 | one radius: the pass's table and rows; the counter advanced once per link; distinct pairs and their count for non-negative types; on types 0..1000 the table comes back except marked zeros |
| Shards.RecordLink | toolbox/scripts/s6_barriers.py:260-270 | from a folder that is not full, one link leaves the folder not full and adds one saved raster when saving, none otherwise, and without saving changes nothing |
| Shards.Advance | toolbox/scripts/s6_barriers.py:260-270 | from a folder that is not full, n links leave the folder not full and account for n more rasters when saving, none otherwise |
| Shards.AdvanceAdd | toolbox/scripts/s6_barriers.py:260-270 | counting a links then b links is counting a + b links |
| Shards.SavedRasters | toolbox/scripts/s6_barriers.py:260-270 | after n saved rasters the folder index is n div 100 and the folder holds n mod 100 |
| Shards.RasterFolder | toolbox/scripts/s6_barriers.py:260-270 | raster k goes to folder k div 100 |
| Shards.TwoHundredFiftyRasters | toolbox/scripts/s6_barriers.py:260-270 | 250 saved rasters leave 50 in folder 2 |
| Shards.UnsavedRasters | toolbox/scripts/s6_barriers.py:260-266 | without saving the counter never moves |
| Shards.MaxCore | toolbox/scripts/s6_barriers.py:91-92 | the largest core number is a core and bounds them all |
| Shards.FocalSubdirs | toolbox/scripts/s6_barriers.py:111-123 | a sub-folder d >= 1 exists only for some core with core div 100 = d, and every core >= 100 gets its folder |
| Shards.FocalFolders | toolbox/scripts/s6_barriers.py:102-123 | the focal sub-folders created inside the radius loop, as (radius, folder) pairs: none without a scheduled radius; each pair has a scheduled radius and a folder d >= 1 holding some core; every scheduled radius gets the folder of every core >= 100 |
| Shards.FocalGuardRedundant | toolbox/scripts/s6_barriers.py:111-123 | the `maxCoreNum > 99` guard changes nothing: the folders are the positive values of core div 100 |
| Pixels.Gain | toolbox/scripts/s6_barriers.py:175-195 | NoData iff a focal input is NoData; the gain times 2r is d - f1 - f2 - 2r; the gain is zero iff d = f1 + f2 + 2r and positive iff d exceeds it |
| Pixels.GainExample | toolbox/scripts/s6_barriers.py:193-195 | distance 100, radius 10, focal minima 40 and 30 give gain 0.5 |
| Pixels.GainAntitone | toolbox/scripts/s6_barriers.py:193-195 | a larger focal minimum never gives a larger gain |
| Pixels.GainRaster | toolbox/scripts/s6_barriers.py:193-195 | a cell has a gain iff both focal cells have data, and there the gain times 2r is d - f1 - f2 - 2r |
| Pixels.MaxPixel | toolbox/scripts/s6_barriers.py:219-224 | MAXIMUM mosaic cell: NoData iff both inputs are; otherwise one input's value, no less than either data value |
| Pixels.MaxPixelCommutes | toolbox/scripts/s6_barriers.py:219-224 | the mosaic cell rule ignores input order |
| Pixels.MaxPixelAssociates | toolbox/scripts/s6_barriers.py:219-224 | the mosaic cell rule ignores grouping |
| Pixels.MosaicMax | toolbox/scripts/s6_barriers.py:219-224 | each cell is NoData iff both inputs are; otherwise it is one input's cell and no less than either input's data |
| Pixels.DisplayPixel | toolbox/scripts/s6_barriers.py:280-281 | a cell keeps its value iff it has data at least 0; otherwise NoData |
| Pixels.Display | toolbox/scripts/s6_barriers.py:280-283 | a cell keeps its value iff it has data at least 0, and is NoData otherwise |
| Pixels.FillResistance | toolbox/scripts/s6_barriers.py:128 | NoData resistance becomes 1e9; data is kept |
| Pixels.MinPixel | toolbox/scripts/s6_barriers.py:308-309 | MINIMUM cell statistic ignoring NoData: NoData iff both are; otherwise one input, no more than either data value |
| Pixels.TrimPixel | toolbox/scripts/s6_barriers.py:306-316 | the trimmed cell has the grown raster's NoData footprint, never exceeds the grown gain or the filled resistance, and is one of them |
| Pixels.Trim | toolbox/scripts/s6_barriers.py:306-316 | each cell has the grown raster's NoData footprint and otherwise exceeds neither the grown gain nor the filled resistance, being one of them |
| Mosaic.MosaicFold | toolbox/scripts/s6_barriers.py:214-243 | copy-then-mosaic gives, at every cell, the maximum over all rasters (NoData only where all are NoData) |
| Mosaic.CellMaxUnique | toolbox/scripts/s6_barriers.py:214-243 | a cell has one maximum |
| Mosaic.MosaicOrderIndependent | toolbox/scripts/s6_barriers.py:214-243 | permuting the rasters does not change the mosaic |
| Mosaic.SameMembersSameCellMax | toolbox/scripts/s6_barriers.py:214-243 | the cell maximum depends only on which rasters take part |
| Engine.CoreNumbers | toolbox/scripts/s6_barriers.py:91 | both core columns: two numbers per row, and a number is listed iff it is a core of some row |
| Engine.LinkGain | toolbox/scripts/s6_barriers.py:155-195 | the gain raster of a processed pair lies on the grid and holds, in each cell, the gain of the pair's distance over the two cores' focal minima there |
| Engine.Gains | toolbox/scripts/s6_barriers.py:147-195 | one gain raster per processed row, all on the grid; raster k holds in each cell the gain of the k-th processed pair |
| Engine.RadiusResult | toolbox/scripts/s6_barriers.py:214-320 | one radius: the running mosaic is the cellwise max of the gains, the display masks negatives, the grown raster is the display mosaic grown at the radius, and the trim is the grown raster trimmed cell by cell by the resistance |
| Engine.RadiusLoop | toolbox/scripts/s6_barriers.py:138-322 | one output per scheduled radius, in order, each processing the intended rows of the loaded table, with its mosaic, grown and trimmed rasters as for one radius; the only failure is a missing mosaic |
| Engine.CarryCounter | toolbox/scripts/s6_barriers.py:260-270 | carrying the counter across radii counts every processed link once |
| Engine.Summarize | toolbox/scripts/s6_barriers.py:326-386 | the three summaries are the cellwise maxima over radii of display, grown and trimmed rasters |
| Engine.Finish | toolbox/scripts/s6_barriers.py:324-386 | summaries exist iff the normalised start and end differ; the run fails for want of a mosaic iff they differ and there is no radius output; the outputs, counter and folders are passed on |
| Engine.RunAccepted | toolbox/scripts/s6_barriers.py:82-386 | after both checks, a completed run (`Engine.Completed`): per-radius outputs in schedule order, the counter after all links, for each scheduled radius the focal sub-folders of the table's cores (none when no radius is scheduled), the summaries |
| Engine.Run | toolbox/scripts/s6_barriers.py:43-386 | refused iff the radius guard fails; no-links error iff accepted with no corridor link; otherwise the per-radius, counter, focal-folder and summary properties above |
| Engine.RadiusLoopSucceeds | toolbox/scripts/s6_barriers.py:138-153 | with a corridor link every radius has a link to mosaic |
| Engine.RunNoMosaic | toolbox/scripts/s6_barriers.py:326-347 | the run fails for want of a mosaic iff accepted, with a corridor link, a negative step and start < end |
| Engine.RunProcessesEachPairOnce | toolbox/scripts/s6_barriers.py:147-258 | every radius mosaics the first row of each distinct active core pair, one per pair, never two with the same cores |
| Engine.RunMatchesOverlayPass | toolbox/scripts/s6_barriers.py:138-274 | with no negative loaded type the first radius processes the rows of the source's overlay pass on the loaded table; on loaded types in 0..1000, radius i processes the rows the source's overlay pass processes at radius i on the table carried over from the earlier radii |
| Engine.RunCounter | toolbox/scripts/s6_barriers.py:260-270 | after a run with saving, n links leave n mod 100 rasters in folder n div 100; without saving the counter stays at its start |
| Engine.RadiusMosaicOrderFree | toolbox/scripts/s6_barriers.py:214-243 | a radius's mosaic depends only on which rows are processed |

## Left out

- ArcGIS side effects are not modelled: workspaces, extents, the geodatabase copies, folder creation and deletion, `build_stats`, the clean-up of lines 388-409 and the progress reports. The model keeps only the folder numbers and the counter.
- The retry loops around the gain and mosaic statements (`lu.retry_arc_error`) are not modelled; a tool call is taken to succeed.
- The try/except at lines 411-421 is modelled only as the run's error result; the error messages are left out.
- Focal statistics are parameters of `Env`: the annulus focal minimum of a core's distance raster, with its on-disk cache, and the circular focal maximum used to grow a mosaic. The raster tools are not part of this model.
- `lu.get_links_from_core_pairs` and `lu.load_link_table` are not part of this model. The link distance is an `Env` function of the sorted core pair, and the table arrives as a sequence of rows.
- `lu.report_links` is not part of this model. The corridor-link count is taken as the number of rows with type in 1..999, which is the test at lines 151-152.
- `Pixels.Gain`: computes in exact reals. The rasters hold 32-bit floats, whose rounding is not modelled.
- Radii.Schedule: the radius parameters are taken to be whole numbers, handed to `range` as the integers they equal. The source converts them to floats (lines 43-45). Python 2.6 truncates a float argument of `range` with a warning, and Python 2.7 refuses it. Fractional values are not modelled.
- Radii.AcceptedRadiiAtLeastCellSize: holds because radii are whole numbers. With a start radius of 10.5 and a cell size of 10.2 the guard passes, and truncation would visit radius 10, below the cell size.
- All rasters are taken to lie on one grid. The `MINOF` extent set at line 167 for the gain computation is taken to give the resistance raster's grid. Grids of different extents are not modelled.
- Engine.Run: at every radius the loop runs the intended dedup pass on the loaded table (see Findings). The source's overlay pass, and the table it carries from one radius to the next, are modelled separately (`Links.Pass`, `Dedup.Carried`, `LinkPass.RadiusPass`). `Engine.RunMatchesOverlayPass` relates the two at the first radius for non-negative types and at every radius for types in 0..1000; outside that range they can differ (`Dedup.DisabledDuplicateSkipped`, `Dedup.DisabledDuplicateSecondRadius`).
- Engine.RadiusLoop: each radius processes the intended rows of the loaded table, not the source's overlay pass on the carried table. For a table with a negative type, or a type above 1000, the processed rows, the mosaics and the counter can differ from the source's: on types [1, -1] for one core pair the source processes rows 0 and 1 at the first radius and counts two links, where the model processes row 0 and counts one.
- Engine.RunAccepted: its per-radius links and its counter inherit the difference named under `Engine.RadiusLoop` for tables with a negative type or a type above 1000.
- Engine.RunProcessesEachPairOnce: holds of the intended pass the model runs; the source's overlay pass can process a pair twice, as on types [1, -1] (`Dedup.DisabledDuplicateSkipped`).
- `toolbox/scripts/barrier_master.py` is not part of this model.

## Findings

| source | as written | input that shows it | evidently intended | confidence | as-written member | corrected member |
|---|---|---|---|---|---|---|
| toolbox/scripts/s6_barriers.py:250-258 | the duplicate scan adds 1000 to every later row with the same cores, whatever its type, so a negative (non-corridor) type can land in 1..999 | types [1, -1] on two rows joining cores 1 and 2: the second row becomes 999, is processed as a second link of the same pair in the same radius, and keeps type 999 afterwards | only corridor links are processed, each core pair once per radius, and disabling leaves the table's types as loaded | low, not executed | Dedup.DisabledDuplicateSkipped | Dedup.IntendedPassDedups |
| toolbox/scripts/s6_barriers.py:272-274 | the restore lowers every type above 1000, including a row loaded above 1000 that no processed row disabled | types [1500] on one row: no link at the first radius, type 500 afterwards, and the row processed at the second radius | the restore undoes only the overlay added during this radius, so each radius processes the same rows | low, not executed | Dedup.HighTypeActivatedNextRadius | Dedup.IntendedPass |

=== FILE: dedup.dfy ===
/** The link pass of step 6 as its guard at lines 151-152 and the comment at lines
    248-249 of toolbox/scripts/s6_barriers.py describe it: a row is processed only
    while its type is in 1 .. 999, and processing it disables, for the rest of the
    radius only, every later row with the same two cores. Here the disabled rows are
    kept apart from the types, so the table is never changed. The source instead adds
    1000 to the type and later subtracts 1000 from every type above 1000; the lemmas
    at the end of this module relate the two. */
module Dedup {
  import opened Links

  /** Visiting row `x`: an active row that is not disabled is processed, and it
      disables every later row with the same cores. */
  function Disable(types: seq<int>, pairs: seq<Pair>, off: seq<bool>, x: nat): (next: seq<bool>)
    requires |types| == |pairs| == |off| && x < |types|
    ensures |next| == |off|
  {
    if Active(types[x]) && !off[x] then
      seq(|off|, y requires 0 <= y < |off| => off[y] || (x < y && SameCores(pairs[y], pairs[x])))
    else
      off
  }

  /** The disabled rows after rows `0 .. k-1` have been visited. */
  function Disabled(types: seq<int>, pairs: seq<Pair>, k: nat): (off: seq<bool>)
    requires |types| == |pairs| && k <= |types|
    ensures |off| == |types|
  {
    if k == 0 then seq(|types|, _ => false)
    else Disable(types, pairs, Disabled(types, pairs, k - 1), k - 1)
  }

  /** The pass processes row `x` when it reaches it active and not disabled. */
  predicate Picks(types: seq<int>, pairs: seq<Pair>, x: nat)
    requires |types| == |pairs| && x < |types|
  {
    Active(types[x]) && !Disabled(types, pairs, x)[x]
  }

  /** The rows processed among the first `k`, in order. */
  function Picked(types: seq<int>, pairs: seq<Pair>, k: nat): (rows: seq<nat>)
    requires |types| == |pairs| && k <= |types|
    ensures Increasing(rows)
    ensures forall i :: 0 <= i < |rows| ==> rows[i] < k
  {
    if k == 0 then []
    else
      Picked(types, pairs, k - 1)
      + (if Picks(types, pairs, k - 1) then [k - 1] else [])
  }

  /** The rows processed among the first `k` are the rows the pass picks. */
  lemma {:induction false} PickedMembers(types: seq<int>, pairs: seq<Pair>, k: nat)
    requires |types| == |pairs| && k <= |types|
    ensures forall x :: x in Picked(types, pairs, k) <==> 0 <= x < k && Picks(types, pairs, x)
    decreases k
  {
    if k > 0 {
      PickedMembers(types, pairs, k - 1);
      var prev := Picked(types, pairs, k - 1);
      var last := if Picks(types, pairs, k - 1) then [k - 1] else [];
      assert Picked(types, pairs, k) == prev + last;
      forall x ensures x in prev + last <==> 0 <= x < k && Picks(types, pairs, x) {
        assert x in prev + last <==> x in prev || x in last;
      }
    }
  }

  /** The rows one radius processes: whatever the types, exactly the first active row
      of each core pair, in table order. */
  function IntendedPass(types: seq<int>, pairs: seq<Pair>): (rows: seq<nat>)
    requires |types| == |pairs|
    ensures FirstRows(types, pairs, rows)
  {
    PickedAreFirstRows(types, pairs);
    Picked(types, pairs, |types|)
  }

  /** After `k` rows have been visited, a row is disabled exactly when an active row
      before it, among the first `k`, has the same cores. */
  lemma {:induction false} DisabledIsCovered(types: seq<int>, pairs: seq<Pair>, k: nat)
    requires |types| == |pairs| && k <= |types|
    ensures forall y :: 0 <= y < |types| ==> Disabled(types, pairs, k)[y] == Covered(types, pairs, k, y)
    decreases k
  {
    if k > 0 {
      var x := k - 1;
      DisabledIsCovered(types, pairs, x);
      forall y | 0 <= y < |types|
        ensures Disabled(types, pairs, k)[y] == Covered(types, pairs, k, y)
      {
        if x < y && Active(types[x]) && SameCores(pairs[x], pairs[y]) {
          assert Covered(types, pairs, k, y);
          if Covered(types, pairs, x, x) {
            var w :| 0 <= w < x && w < x && Active(types[w]) && SameCores(pairs[w], pairs[x]);
            assert Covered(types, pairs, x, y);
          }
        } else {
          CoveredExtend(types, pairs, k, y);
        }
      }
    }
  }

  /** A row is picked exactly when it is the first active row of its core pair. */
  lemma PickedAreFirstRows(types: seq<int>, pairs: seq<Pair>)
    requires |types| == |pairs|
    ensures FirstRows(types, pairs, Picked(types, pairs, |types|))
  {
    PickedMembers(types, pairs, |types|);
    forall x | 0 <= x < |types|
      ensures x in Picked(types, pairs, |types|) <==> FirstOfPair(types, pairs, x)
    {
      DisabledIsCovered(types, pairs, x);
      assert Picks(types, pairs, x) <==> FirstOfPair(types, pairs, x);
    }
  }

  /** Whatever the types, no two processed rows share their cores, and a radius
      processes one row per distinct unordered core pair among the active rows. */
  lemma IntendedPassDedups(types: seq<int>, pairs: seq<Pair>)
    requires |types| == |pairs|
    ensures var rows := IntendedPass(types, pairs);
            && (forall i, j :: 0 <= i < j < |rows| ==> !SameCores(pairs[rows[i]], pairs[rows[j]]))
            && |rows| == |ActiveKeys(types, pairs)|
  {
    FirstRowsDistinct(types, pairs, IntendedPass(types, pairs));
    FirstRowsCount(types, pairs, IntendedPass(types, pairs));
  }

  /** A table with an active row has a row to process. */
  lemma IntendedPassNonEmpty(types: seq<int>, pairs: seq<Pair>)
    requires |types| == |pairs| && 0 < CountActive(types)
    ensures 0 < |IntendedPass(types, pairs)|
  {
    var x :| 0 <= x < |types| && Active(types[x]);
    FirstOfPairExists(types, pairs, x);
    var w :| 0 <= w <= x && FirstOfPair(types, pairs, w) && SameCores(pairs[w], pairs[x]);
    assert w in IntendedPass(types, pairs);
  }

  /** The members of an increasing list without its last element are its members
      below the last element. */
  lemma FrontMembers(a: seq<nat>)
    requires Increasing(a) && 0 < |a|
    ensures Increasing(a[..|a| - 1])
    ensures forall x :: x in a[..|a| - 1] <==> x in a && x < a[|a| - 1]
  {
    var m := |a| - 1;
    forall x | x in a && x < a[m] ensures x in a[..m] {
      var k :| 0 <= k < |a| && a[k] == x;
      assert a[..m][k] == x;
    }
  }

  /** The last element of a non-empty increasing list is its largest member. */
  lemma LastIsMax(a: seq<nat>, x: nat)
    requires Increasing(a) && x in a
    ensures x <= a[|a| - 1]
  {
    var k :| 0 <= k < |a| && a[k] == x;
  }

  /** Two increasing lists with the same members are equal. */
  lemma {:induction false} IncreasingSameMembers(a: seq<nat>, b: seq<nat>)
    requires Increasing(a) && Increasing(b)
    requires forall x :: x in a <==> x in b
    ensures a == b
    decreases |a|
  {
    if 0 < |a| {
      var m := |a| - 1;
      assert a[m] in a && a[m] in b;
      var n := |b| - 1;
      assert b[n] in b && b[n] in a;
      LastIsMax(b, a[m]);
      LastIsMax(a, b[n]);
      FrontMembers(a);
      FrontMembers(b);
      assert a[m] == b[n];
      forall x ensures x in a[..m] <==> x in b[..n] {
        assert x in a <==> x in b;
      }
      IncreasingSameMembers(a[..m], b[..n]);
      assert a == a[..m] + [a[m]] && b == b[..n] + [b[n]];
    } else if 0 < |b| {
      LastIsMax(b, b[|b| - 1]);
      assert false;
    }
  }

  /** With non-negative types the source's overlay pass processes the same rows as
      the intended pass. */
  lemma IntendedPassAgrees(types: seq<int>, pairs: seq<Pair>)
    requires |types| == |pairs| && NonNegative(types)
    ensures Pass(types, pairs).1 == IntendedPass(types, pairs)
  {
    ProcessedRowsAreFirstOfPair(types, pairs);
    var a, b := Pass(types, pairs).1, IntendedPass(types, pairs);
    forall x ensures x in a <==> x in b {
      if x in a {
        var i :| 0 <= i < |a| && a[i] == x;
      }
      if x in b {
        var i :| 0 <= i < |b| && b[i] == x;
      }
    }
    IncreasingSameMembers(a, b);
  }

  /** For a table whose types lie in 0 .. 1000 the source's pass processes the rows
      the intended pass processes and leaves a table of the same kind, on which the
      intended pass again processes the same rows; by induction the two agree at
      every radius of the loop. */
  lemma CodeAgreesOnWellFormed(types: seq<int>, pairs: seq<Pair>)
    requires |types| == |pairs| && WellFormed(types)
    ensures Pass(types, pairs).1 == IntendedPass(types, pairs)
    ensures WellFormed(Pass(types, pairs).0)
    ensures IntendedPass(Pass(types, pairs).0, pairs) == IntendedPass(types, pairs)
  {
    var next := Pass(types, pairs).0;
    PassStable(types, pairs);
    IntendedPassAgrees(types, pairs);
    IntendedPassAgrees(next, pairs);
  }

  /** The table the source's radius loop hands to radius `i` (counting from 0): the
      loaded table after `i` passes, since the restore at lines 272-274 is all that
      happens to it between radii. */
  function Carried(types: seq<int>, pairs: seq<Pair>, i: nat): (t: seq<int>)
    requires |types| == |pairs|
    ensures |t| == |types|
    decreases i
  {
    if i == 0 then types else Carried(Pass(types, pairs).0, pairs, i - 1)
  }

  /** For a loaded table whose types lie in 0 .. 1000, the table carried to every
      radius is of the same kind. */
  lemma {:induction false} CarriedWellFormed(types: seq<int>, pairs: seq<Pair>, i: nat)
    requires |types| == |pairs| && WellFormed(types)
    ensures WellFormed(Carried(types, pairs, i))
    decreases i
  {
    if i > 0 {
      var next := Pass(types, pairs).0;
      PassStable(types, pairs);
      CarriedWellFormed(next, pairs, i - 1);
      assert Carried(types, pairs, i) == Carried(next, pairs, i - 1);
    }
  }

  /** For a loaded table whose types lie in 0 .. 1000, the intended pass processes
      the same rows on the table carried to any radius as on the loaded table. */
  lemma {:induction false} CarriedStable(types: seq<int>, pairs: seq<Pair>, i: nat)
    requires |types| == |pairs| && WellFormed(types)
    ensures IntendedPass(Carried(types, pairs, i), pairs) == IntendedPass(types, pairs)
    decreases i
  {
    if i > 0 {
      var next := Pass(types, pairs).0;
      CodeAgreesOnWellFormed(types, pairs);
      CarriedStable(next, pairs, i - 1);
      assert IntendedPass(next, pairs) == IntendedPass(types, pairs);
    }
  }

  /** For a loaded table whose types lie in 0 .. 1000, the source's pass at every
      radius, on the table carried to it, processes exactly the rows the intended
      pass processes on the loaded table. */
  lemma CarriedAgrees(types: seq<int>, pairs: seq<Pair>, i: nat)
    requires |types| == |pairs| && WellFormed(types)
    ensures Pass(Carried(types, pairs, i), pairs).1 == IntendedPass(types, pairs)
  {
    CarriedWellFormed(types, pairs, i);
    CarriedStable(types, pairs, i);
    CodeAgreesOnWellFormed(Carried(types, pairs, i), pairs);
  }

  /** The input of the first finding: a disabled row (type -1) that repeats the cores
      of an earlier corridor link. The intended pass processes only the corridor link;
      the source's overlay lifts the disabled row to 999 and processes it too. */
  lemma DisabledDuplicateSkipped()
    ensures IntendedPass([1, -1], [Pair(1, 2), Pair(1, 2)]) == [0]
    ensures Pass([1, -1], [Pair(1, 2), Pair(1, 2)]).1 == [0, 1]
  {
    var types, pairs := [1, -1], [Pair(1, 2), Pair(1, 2)];
    assert Disabled(types, pairs, 1) == [false, true];
    assert Picked(types, pairs, 1) == [0];
    assert Picked(types, pairs, 2) == Picked(types, pairs, 1);
    NegativeTypeLifted();
  }

  /** On the same input the source's loop carries the table [1, 999] to the second
      radius, where the pass processes only the corridor link: the as-written run
      processes different rows at different radii. */
  lemma DisabledDuplicateSecondRadius()
    ensures Carried([1, -1], [Pair(1, 2), Pair(1, 2)], 1) == [1, 999]
    ensures Pass([1, 999], [Pair(1, 2), Pair(1, 2)]).1 == [0]
  {
    var pairs := [Pair(1, 2), Pair(1, 2)];
    NegativeTypeLifted();
    assert Carried([1, -1], pairs, 1) == Pass([1, -1], pairs).0;
    DuplicateOfCorridorLinkSkipped();
  }

  /** Types [1, 999] on one core pair: the first row disables the second. */
  lemma DuplicateOfCorridorLinkSkipped()
    ensures Pass([1, 999], [Pair(1, 2), Pair(1, 2)]).1 == [0]
  {
    var pairs, next := [Pair(1, 2), Pair(1, 2)], [1, 999];
    assert Scan(next, pairs, 1) == Visit(next, pairs, 0);
    assert Visit(next, pairs, 0) == [1, 1999];
    assert Processed(next, pairs, 1) == [0];
    assert Scan(next, pairs, 2) == Visit([1, 1999], pairs, 1);
    assert Processed(next, pairs, 2) == [0];
  }

  /** The input of the second finding: a row loaded with type 1500 is never a corridor
      link for the intended pass, but the source's restore lowers it to 500, and the
      pass at the next radius processes it. */
  lemma HighTypeActivatedNextRadius()
    ensures IntendedPass([1500], [Pair(1, 2)]) == []
    ensures Pass([1500], [Pair(1, 2)]) == ([500], [])
    ensures Pass([500], [Pair(1, 2)]).1 == [0]
  {
    var pairs := [Pair(1, 2)];
    assert Scan([1500], pairs, 1) == [1500];
    assert Restore([1500]) == [500];
    assert Processed([1500], pairs, 1) == [];
    assert Scan([500], pairs, 1) == Visit([500], pairs, 0);
    assert Visit([500], pairs, 0)[0] == 500;
    assert Processed([500], pairs, 1) == [0];
  }
}

=== FILE: engine.dfy ===
/** The whole of `STEP6_calc_barriers` (toolbox/scripts/s6_barriers.py, lines 29-423)
    with the raster engine reduced to its per-cell meaning: the configuration check,
    the corridor-link check, one dedup pass, gain mosaic, display mask, grow and trim
    per radius, and the summary mosaics across radii. */
module Engine {
  import opened Wrappers
  import opened Radii
  import opened Links
  import opened Dedup
  import Shards
  import opened Pixels
  import opened Mosaic

  /** Why a run stops: the radius configuration is refused, the table has no
      corridor link, or there is no mosaic raster to continue from (an empty radius
      schedule with distinct start and end radii, or a radius that processed no link). */
  datatype RunError = BadRadius | NoLinks | NoMosaic

  /** The raster collaborators, as values: the focal-minimum raster of a core at a
      radius, the cost-weighted distance of a processed core pair, the circular focal
      maximum used to grow a mosaic, and the resistance surface. All rasters share
      one grid of `width` cells. */
  datatype Env = Env(
    width: nat,
    focal: (int, int) -> Raster,
    linkDistance: Pair -> real,
    grow: (Raster, int) -> Raster,
    resistance: Raster)

  ghost predicate WellShaped(env: Env) {
    && |env.resistance| == env.width
    && (forall core, r :: |env.focal(core, r)| == env.width)
    && (forall m: Raster, r :: |m| == env.width ==> |env.grow(m, r)| == env.width)
  }

  /** What one radius leaves behind: the rows processed, the running mosaic of their
      gains (`combined`), its display version, the grown raster and the trimmed raster. */
  datatype RadiusOutput = RadiusOutput(
    radius: int, links: seq<nat>, combined: Raster, mosaic: Raster, fill: Raster, trim: Raster)

  /** The cross-radius summaries `bar_radii`, `bar_radii_fill` and `bar_radii_trm`. */
  datatype Summary = Summary(mosaic: Raster, fill: Raster, trim: Raster)

  /** A completed run: the outputs per radius, the summaries when built, the folder
      counter, and the focal sub-folders created, as (radius, folder number) pairs. */
  datatype RunOutput = RunOutput(
    radii: seq<RadiusOutput>, summary: Option<Summary>, counter: Shards.Counter, focalDirs: set<(int, int)>)

  /** Both core columns of the table, row by row (`coresToProcess` before `unique`). */
  function CoreNumbers(links: seq<Link>): (cores: seq<int>)
    ensures |cores| == 2 * |links|
    ensures forall i :: 0 <= i < |links| ==> links[i].core1 in cores && links[i].core2 in cores
    ensures forall c :: c in cores ==>
              exists i :: 0 <= i < |links| && (c == links[i].core1 || c == links[i].core2)
  {
    if |links| == 0 then []
    else
      var rest := CoreNumbers(links[1..]);
      assert forall i :: 1 <= i < |links| ==> links[i] == links[1..][i - 1];
      [links[0].core1, links[0].core2] + rest
  }

  /** The gain raster of a processed core pair at radius `r`, from the focal rasters of
      its two cores (the smaller core first, as in the sorted `coreList`): in every
      cell, the gain of the pair's distance over that cell's two focal minima. */
  function LinkGain(env: Env, pair: Pair, r: int): (g: Raster)
    requires WellShaped(env) && 0 < r
    ensures |g| == env.width
    ensures forall i :: 0 <= i < |g| ==>
              g[i] == Gain(env.linkDistance(pair), r, env.focal(pair.first, r)[i], env.focal(pair.second, r)[i])
  {
    GainRaster(env.linkDistance(pair), r, env.focal(pair.first, r), env.focal(pair.second, r))
  }

  /** The gain rasters of the processed rows, in processing order: raster `k` holds,
      cell by cell, the gain of the `k`-th processed pair. */
  function Gains(env: Env, r: int, pairs: seq<Pair>, rows: seq<nat>): (gs: seq<Raster>)
    requires WellShaped(env) && 0 < r
    requires forall k :: 0 <= k < |rows| ==> rows[k] < |pairs|
    ensures |gs| == |rows| && OnGrid(gs, env.width)
    ensures forall k, i :: 0 <= k < |rows| && 0 <= i < env.width ==>
              var p := pairs[rows[k]];
              gs[k][i] == Gain(env.linkDistance(p), r, env.focal(p.first, r)[i], env.focal(p.second, r)[i])
  {
    seq(|rows|, k requires 0 <= k < |rows| => LinkGain(env, pairs[rows[k]], r))
  }

  /** Lines 214-320 for one radius: the running mosaic, the display mask, the grown
      raster and the trimmed raster. */
  function RadiusResult(env: Env, r: int, pairs: seq<Pair>, rows: seq<nat>): (out: RadiusOutput)
    requires WellShaped(env) && 0 < r && 0 < |rows|
    requires forall k :: 0 <= k < |rows| ==> rows[k] < |pairs|
    ensures out.radius == r && out.links == rows
    ensures |out.combined| == env.width && |out.mosaic| == env.width
    ensures |out.fill| == env.width && |out.trim| == env.width
    ensures forall i :: 0 <= i < env.width ==> IsCellMax(Gains(env, r, pairs, rows), i, out.combined[i])
    ensures forall i :: 0 <= i < env.width ==> out.mosaic[i] == DisplayPixel(out.combined[i])
    ensures out.fill == env.grow(out.mosaic, r)
    ensures forall i :: 0 <= i < env.width ==> out.trim[i] == TrimPixel(out.fill[i], env.resistance[i])
  {
    var combined := MosaicFold(Gains(env, r, pairs, rows));
    var mosaic := Display(combined);
    var fill := env.grow(mosaic, r);
    RadiusOutput(r, rows, combined, mosaic, fill, Trim(fill, env.resistance))
  }

  /** The number of links processed over a list of radii. */
  function TotalLinks(outs: seq<RadiusOutput>): nat {
    if |outs| == 0 then 0 else |outs[0].links| + TotalLinks(outs[1..])
  }

  /** What every radius output satisfies: it processed at least one row of the table,
      its running mosaic is the cellwise maximum of those rows' gains, its display
      mosaic masks the negative gains, its grown raster is the display mosaic grown at
      the radius, its trimmed raster is the grown raster trimmed by the resistance,
      and all its rasters lie on the grid. */
  ghost predicate ValidOutput(env: Env, pairs: seq<Pair>, out: RadiusOutput)
    requires WellShaped(env)
  {
    && 0 < out.radius
    && 0 < |out.links|
    && (forall k :: 0 <= k < |out.links| ==> out.links[k] < |pairs|)
    && |out.combined| == env.width && |out.mosaic| == env.width
    && |out.fill| == env.width && |out.trim| == env.width
    && (forall j :: 0 <= j < env.width ==>
          IsCellMax(Gains(env, out.radius, pairs, out.links), j, out.combined[j])
          && out.mosaic[j] == DisplayPixel(out.combined[j]))
    && out.fill == env.grow(out.mosaic, out.radius)
    && (forall j :: 0 <= j < env.width ==> out.trim[j] == TrimPixel(out.fill[j], env.resistance[j]))
  }

  /** The radius loop (lines 138-322). The model runs the intended dedup pass
      `Dedup.IntendedPass` on the loaded table at every radius: the first corridor link
      of each core pair. The source instead runs its overlay pass on the table carried
      over from the previous radius (`Dedup.Carried`), whose restore lowers only types
      above 1000. The two agree at every radius when the loaded types lie in 0..1000
      (`Dedup.CarriedAgrees`). */
  function RadiusLoop(env: Env, radii: seq<int>, types: seq<int>, pairs: seq<Pair>)
    : (res: Result<seq<RadiusOutput>, RunError>)
    requires WellShaped(env) && |types| == |pairs|
    requires forall i :: 0 <= i < |radii| ==> 0 < radii[i]
    ensures res.Err? ==> res.error == NoMosaic
    ensures res.Ok? ==> |res.value| == |radii|
    ensures res.Ok? ==> forall i :: 0 <= i < |radii| ==>
              && res.value[i].radius == radii[i]
              && res.value[i].links == IntendedPass(types, pairs)
              && ValidOutput(env, pairs, res.value[i])
    decreases |radii|
  {
    if |radii| == 0 then
      Ok([])
    else
      var rows := IntendedPass(types, pairs);
      if |rows| == 0 then
        Err(NoMosaic)
      else
        var out := RadiusResult(env, radii[0], pairs, rows);
        RadiusResultValid(env, radii[0], pairs, rows);
        var tail := RadiusLoop(env, radii[1..], types, pairs);
        if tail.Err? then
          Err(tail.error)
        else
          ConsOutputs(env, pairs, radii, rows, out, tail.value);
          Ok([out] + tail.value)
  }

  /** The folder counter carried across the radii: each radius advances it once per
      processed link (lines 260-270), starting from where the previous radius left it,
      so over the whole loop it counts every processed link once. */
  function CarryCounter(counter: Shards.Counter, save: bool, outs: seq<RadiusOutput>): (r: Shards.Counter)
    ensures r == Shards.Advance(counter, save, TotalLinks(outs))
    decreases |outs|
  {
    if |outs| == 0 then counter
    else
      Shards.AdvanceAdd(counter, save, |outs[0].links|, TotalLinks(outs[1..]));
      CarryCounter(Shards.Advance(counter, save, |outs[0].links|), save, outs[1..])
  }

  lemma RadiusResultValid(env: Env, r: int, pairs: seq<Pair>, rows: seq<nat>)
    requires WellShaped(env) && 0 < r && 0 < |rows|
    requires forall k :: 0 <= k < |rows| ==> rows[k] < |pairs|
    ensures ValidOutput(env, pairs, RadiusResult(env, r, pairs, rows))
  {
  }

  /** Putting the output of the first radius in front of those of the later radii. */
  lemma ConsOutputs(env: Env, pairs: seq<Pair>, radii: seq<int>, rows: seq<nat>, out: RadiusOutput, rest: seq<RadiusOutput>)
    requires WellShaped(env) && 0 < |radii| && |rest| == |radii| - 1
    requires out.radius == radii[0] && out.links == rows && ValidOutput(env, pairs, out)
    requires forall i :: 0 <= i < |rest| ==>
               rest[i].radius == radii[1..][i] && rest[i].links == rows && ValidOutput(env, pairs, rest[i])
    ensures forall i :: 0 <= i < |radii| ==>
              ([out] + rest)[i].radius == radii[i] && ([out] + rest)[i].links == rows
              && ValidOutput(env, pairs, ([out] + rest)[i])
    ensures TotalLinks([out] + rest) == |out.links| + TotalLinks(rest)
  {
    var outs := [out] + rest;
    assert outs[1..] == rest;
    forall i | 1 <= i < |radii|
      ensures outs[i].radius == radii[i] && outs[i].links == rows && ValidOutput(env, pairs, outs[i])
    {
      assert outs[i] == rest[i - 1];
    }
  }

  function Mosaics(outs: seq<RadiusOutput>): (rs: seq<Raster>)
    ensures |rs| == |outs| && forall k :: 0 <= k < |outs| ==> |rs[k]| == |outs[k].mosaic|
  {
    seq(|outs|, k requires 0 <= k < |outs| => outs[k].mosaic)
  }

  function Fills(outs: seq<RadiusOutput>): (rs: seq<Raster>)
    ensures |rs| == |outs| && forall k :: 0 <= k < |outs| ==> |rs[k]| == |outs[k].fill|
  {
    seq(|outs|, k requires 0 <= k < |outs| => outs[k].fill)
  }

  function Trims(outs: seq<RadiusOutput>): (rs: seq<Raster>)
    ensures |rs| == |outs| && forall k :: 0 <= k < |outs| ==> |rs[k]| == |outs[k].trim|
  {
    seq(|outs|, k requires 0 <= k < |outs| => outs[k].trim)
  }

  /** `sum` holds the cellwise maxima across the radii of the display mosaics, the
      grown rasters and the trimmed rasters. */
  ghost predicate SummaryOf(outs: seq<RadiusOutput>, width: nat, sum: Summary) {
    && OnGrid(Mosaics(outs), width) && OnGrid(Fills(outs), width) && OnGrid(Trims(outs), width)
    && |sum.mosaic| == width && |sum.fill| == width && |sum.trim| == width
    && forall i :: 0 <= i < width ==>
         && IsCellMax(Mosaics(outs), i, sum.mosaic[i])
         && IsCellMax(Fills(outs), i, sum.fill[i])
         && IsCellMax(Trims(outs), i, sum.trim[i])
  }

  /** Lines 326-386: each summary is the first radius's raster copied, then every later
      radius's raster combined by a MAXIMUM mosaic, that is, the cellwise maximum over
      the radii. */
  function Summarize(outs: seq<RadiusOutput>, width: nat): (s: Summary)
    requires 0 < |outs|
    requires forall k :: 0 <= k < |outs| ==>
               |outs[k].mosaic| == width && |outs[k].fill| == width && |outs[k].trim| == width
    ensures SummaryOf(outs, width, s)
  {
    Summary(MosaicFold(Mosaics(outs)), MosaicFold(Fills(outs)), MosaicFold(Trims(outs)))
  }

  /** Lines 324-386: the summary mosaics, built only when the start and end radii
      (after a zero step has been replaced) differ. With no radius output to start
      from, the copy at line 347 has no raster to read. */
  function Finish(c: Config, outs: seq<RadiusOutput>, counter: Shards.Counter, dirs: set<(int, int)>,
                  env: Env, pairs: seq<Pair>)
    : (res: Result<RunOutput, RunError>)
    requires WellShaped(env)
    requires forall k :: 0 <= k < |outs| ==> ValidOutput(env, pairs, outs[k])
    ensures res.Err? ==> res.error == NoMosaic
    ensures res.Err? <==> |outs| == 0 && c.radiusStep != 0 && c.startRadius != c.endRadius
    ensures res.Ok? ==> res.value.radii == outs && res.value.counter == counter && res.value.focalDirs == dirs
    ensures res.Ok? ==> (res.value.summary.Some? <==> c.radiusStep != 0 && c.startRadius != c.endRadius)
    ensures res.Ok? && res.value.summary.Some? ==> SummaryOf(res.value.radii, env.width, res.value.summary.value)
  {
    var b := Normalize(c);
    if b.start == b.end then
      Ok(RunOutput(outs, None, counter, dirs))
    else if |outs| == 0 then
      Err(NoMosaic)
    else
      assert forall k :: 0 <= k < |outs| ==>
               |outs[k].mosaic| == env.width && |outs[k].fill| == env.width && |outs[k].trim| == env.width by {
        forall k | 0 <= k < |outs| ensures ValidOutput(env, pairs, outs[k]) { }
      }
      Ok(RunOutput(outs, Some(Summarize(outs, env.width)), counter, dirs))
  }

  /** What a completed run of configuration `c` on `links` holds: one output per
      scheduled radius, in order, each processing the intended rows and valid for
      the environment; summaries exactly when the radius range has more than one
      value; the counter after every processed link; and, for each scheduled radius,
      the focal sub-folders of the table's cores. */
  ghost predicate Completed(c: Config, links: seq<Link>, save: bool, env: Env, out: RunOutput)
    requires WellShaped(env) && 0 < |links|
  {
    && |out.radii| == |Schedule(c)|
    && (forall i :: 0 <= i < |Schedule(c)| ==>
          && out.radii[i].radius == Schedule(c)[i]
          && out.radii[i].links == IntendedPass(Types(links), CoreList(links))
          && ValidOutput(env, CoreList(links), out.radii[i]))
    && (out.summary.Some? <==> c.radiusStep != 0 && c.startRadius != c.endRadius)
    && (out.summary.Some? ==> SummaryOf(out.radii, env.width, out.summary.value))
    && out.counter == Shards.Advance(Shards.Start, save, TotalLinks(out.radii))
    && out.focalDirs == Shards.FocalFolders(Schedule(c), CoreNumbers(links))
    && (|Schedule(c)| == 0 ==> out.focalDirs == {})
  }

  /** The part of a run after both checks have passed (lines 82-386). */
  function RunAccepted(c: Config, links: seq<Link>, save: bool, env: Env)
    : (res: Result<RunOutput, RunError>)
    requires WellShaped(env) && 0 < |links|
    requires forall i :: 0 <= i < |Schedule(c)| ==> 0 < Schedule(c)[i]
    ensures res.Ok? ==> Completed(c, links, save, env, res.value)
    ensures res.Err? ==> res.error == NoMosaic
  {
    var dirs := Shards.FocalFolders(Schedule(c), CoreNumbers(links));
    var loop := RadiusLoop(env, Schedule(c), Types(links), CoreList(links));
    if loop.Err? then
      Err(loop.error)
    else
      Finish(c, loop.value, CarryCounter(Shards.Start, save, loop.value), dirs, env, CoreList(links))
  }

  /** One run of step 6 (lines 29-423): the radius check (lines 68-72), the
      corridor-link check (lines 74-80), then the radius loop and the summaries. */
  function Run(c: Config, cellSize: real, links: seq<Link>, save: bool, env: Env)
    : (res: Result<RunOutput, RunError>)
    requires 0.0 < cellSize && WellShaped(env)
    ensures res == Err(BadRadius) <==> Rejected(c, cellSize)
    ensures res == Err(NoLinks) <==> !Rejected(c, cellSize) && CountActive(Types(links)) == 0
    ensures res.Ok? ==> 0 < |links| && Completed(c, links, save, env, res.value)
  {
    if Rejected(c, cellSize) then
      Err(BadRadius)
    else if CountActive(Types(links)) == 0 then
      Err(NoLinks)
    else
      AcceptedRadiiAtLeastCellSize(c, cellSize);
      RunAccepted(c, links, save, env)
  }

  /** A radius that processes no row cannot happen once the table has a corridor
      link. */
  lemma {:induction false} RadiusLoopSucceeds(env: Env, radii: seq<int>, types: seq<int>, pairs: seq<Pair>)
    requires WellShaped(env) && |types| == |pairs|
    requires forall i :: 0 <= i < |radii| ==> 0 < radii[i]
    requires 0 < CountActive(types)
    ensures RadiusLoop(env, radii, types, pairs).Ok?
    decreases |radii|
  {
    if 0 < |radii| {
      IntendedPassNonEmpty(types, pairs);
      RadiusLoopSucceeds(env, radii[1..], types, pairs);
    }
  }

  /** The run stops for want of a mosaic exactly when the configuration is accepted,
      the table has a corridor link, and a negative step makes the radius schedule
      empty although start and end radii differ. */
  lemma RunNoMosaic(c: Config, cellSize: real, links: seq<Link>, save: bool, env: Env)
    requires 0.0 < cellSize && WellShaped(env)
    ensures Run(c, cellSize, links, save, env) == Err(NoMosaic) <==>
              && !Rejected(c, cellSize)
              && 0 < CountActive(Types(links))
              && c.radiusStep < 0 && c.startRadius < c.endRadius
  {
    if !Rejected(c, cellSize) && 0 < CountActive(Types(links)) {
      AcceptedRadiiAtLeastCellSize(c, cellSize);
      RadiusLoopSucceeds(env, Schedule(c), Types(links), CoreList(links));
    }
  }

  /** Every radius mosaics one row per distinct unordered pair of cores among the
      corridor links, the first such row in table order, and no two processed rows
      join the same two cores. */
  lemma RunProcessesEachPairOnce(c: Config, cellSize: real, links: seq<Link>, save: bool, env: Env)
    requires 0.0 < cellSize && WellShaped(env)
    ensures Run(c, cellSize, links, save, env).Ok? ==>
            var outs := Run(c, cellSize, links, save, env).value.radii;
            var types, pairs := Types(links), CoreList(links);
            forall i :: 0 <= i < |outs| ==>
              && FirstRows(types, pairs, outs[i].links)
              && |outs[i].links| == |ActiveKeys(types, pairs)|
              && forall j, k :: 0 <= j < k < |outs[i].links| ==>
                   !SameCores(pairs[outs[i].links[j]], pairs[outs[i].links[k]])
  {
    IntendedPassDedups(Types(links), CoreList(links));
  }

  /** The rows the run processes are those the source's overlay pass processes: at the
      first radius whenever no loaded type is negative, and at every radius, on the
      table the earlier radii have carried over to it, when every loaded type lies in
      0..1000. */
  lemma RunMatchesOverlayPass(c: Config, cellSize: real, links: seq<Link>, save: bool, env: Env)
    requires 0.0 < cellSize && WellShaped(env)
    ensures Run(c, cellSize, links, save, env).Ok? && NonNegative(Types(links)) ==>
            var outs := Run(c, cellSize, links, save, env).value.radii;
            0 < |outs| ==> outs[0].links == Pass(Types(links), CoreList(links)).1
    ensures Run(c, cellSize, links, save, env).Ok? && WellFormed(Types(links)) ==>
            var outs := Run(c, cellSize, links, save, env).value.radii;
            forall i :: 0 <= i < |outs| ==>
              outs[i].links == Pass(Carried(Types(links), CoreList(links), i), CoreList(links)).1
  {
    if NonNegative(Types(links)) {
      IntendedPassAgrees(Types(links), CoreList(links));
    }
    if WellFormed(Types(links)) {
      forall i: nat {
        CarriedAgrees(Types(links), CoreList(links), i);
      }
    }
  }

  /** The folder counter after a run: with `cfg.SAVEBARRIERRASTERS` set, `n` saved
      rasters leave `n mod 100` rasters in folder number `n div 100`; without it
      nothing moves. */
  lemma RunCounter(c: Config, cellSize: real, links: seq<Link>, save: bool, env: Env)
    requires 0.0 < cellSize && WellShaped(env)
    ensures Run(c, cellSize, links, save, env).Ok? ==>
            var r := Run(c, cellSize, links, save, env).value;
            var n := TotalLinks(r.radii);
            r.counter == if save then Shards.Counter(n % Shards.GridsPerFolder, n / Shards.GridsPerFolder)
                         else Shards.Start
  {
    if Run(c, cellSize, links, save, env).Ok? {
      var n := TotalLinks(Run(c, cellSize, links, save, env).value.radii);
      if save {
        Shards.SavedRasters(n);
      } else {
        Shards.UnsavedRasters(Shards.Start, n);
      }
    }
  }

  /** The mosaic of a radius depends only on which rows are processed, not on the
      order in which the loop reaches them. */
  lemma RadiusMosaicOrderFree(env: Env, r: int, pairs: seq<Pair>, rows: seq<nat>, rows2: seq<nat>)
    requires WellShaped(env) && 0 < r && 0 < |rows| && 0 < |rows2|
    requires forall k :: 0 <= k < |rows| ==> rows[k] < |pairs|
    requires forall k :: 0 <= k < |rows2| ==> rows2[k] < |pairs|
    requires forall x :: x in rows <==> x in rows2
    ensures RadiusResult(env, r, pairs, rows).combined == RadiusResult(env, r, pairs, rows2).combined
  {
    var gs, hs := Gains(env, r, pairs, rows), Gains(env, r, pairs, rows2);
    forall g ensures g in gs <==> g in hs {
      if g in gs {
        var k :| 0 <= k < |rows| && gs[k] == g;
        assert rows[k] in rows2;
        var k2 :| 0 <= k2 < |rows2| && rows2[k2] == rows[k];
        assert hs[k2] == g;
      }
      if g in hs {
        var k :| 0 <= k < |rows2| && hs[k] == g;
        assert rows2[k] in rows;
        var k2 :| 0 <= k2 < |rows| && rows[k2] == rows2[k];
        assert gs[k2] == g;
      }
    }
    var a, b := RadiusResult(env, r, pairs, rows).combined, RadiusResult(env, r, pairs, rows2).combined;
    forall i | 0 <= i < env.width ensures a[i] == b[i] {
      SameMembersSameCellMax(gs, hs, i, a[i]);
      CellMaxUnique(hs, i, a[i], b[i]);
    }
  }
}

=== FILE: link_pass.dfy ===
/** The per-radius loop over the link table (toolbox/scripts/s6_barriers.py, lines
    139-274), written as the source writes it: one table of types updated in place, a
    scan over the rows, an inner scan that disables later duplicates, the folder counter,
    and the restore at the end of the radius. */
module LinkPass {
  import opened Links
  import Shards

  /** Lines 250-258: after row `x` is processed every later row with the same cores,
      in either order, gets 1000 added to its type; no other row changes. */
  method DisableDuplicates(table: array<int>, pairs: seq<Pair>, x: nat)
    requires table.Length == |pairs| && x < table.Length && Active(table[x])
    modifies table
    ensures table[..] == Visit(old(table[..]), pairs, x)
  {
    var y := x + 1;
    while y < table.Length
      invariant x + 1 <= y <= table.Length
      invariant forall i :: 0 <= i < table.Length ==>
                  table[i] == (if x < i < y && SameCores(pairs[i], pairs[x]) then old(table[i]) + Mark else old(table[i]))
    {
      if pairs[y].first == pairs[x].first && pairs[y].second == pairs[x].second {
        table[y] := table[y] + Mark;
      } else if pairs[y].first == pairs[x].second && pairs[y].second == pairs[x].first {
        table[y] := table[y] + Mark;
      }
      y := y + 1;
    }
    assert forall i :: 0 <= i < table.Length ==> table[..][i] == Visit(old(table[..]), pairs, x)[i];
  }

  /** Lines 272-274: every type strictly above 1000 loses 1000. */
  method RestoreRows(table: array<int>)
    modifies table
    ensures forall i :: 0 <= i < table.Length ==>
              table[i] == (if old(table[i]) > Mark then old(table[i]) - Mark else old(table[i]))
  {
    var i := 0;
    while i < table.Length
      invariant 0 <= i <= table.Length
      invariant forall j :: 0 <= j < table.Length ==>
                  table[j] == (if j < i then RestoreType(old(table[j])) else old(table[j]))
    {
      if table[i] > Mark {
        table[i] := table[i] - Mark;
      }
      i := i + 1;
    }
  }

  /** Lines 139-258: the scan over the rows of one radius. A row whose current type
      is active is processed and its later duplicates are disabled. */
  method ScanRows(types: seq<int>, pairs: seq<Pair>) returns (scanned: seq<int>, processed: seq<nat>)
    requires |types| == |pairs|
    ensures scanned == Scan(types, pairs, |types|)
    ensures processed == Processed(types, pairs, |types|)
  {
    var n := |types|;
    var table := new int[n](i requires 0 <= i < n => types[i]);
    processed := [];
    var x := 0;
    while x < n
      invariant 0 <= x <= n
      invariant table[..] == Scan(types, pairs, x)
      invariant processed == Processed(types, pairs, x)
    {
      ScanStep(types, pairs, x);
      if 0 < table[x] < Mark {
        DisableDuplicates(table, pairs, x);
        processed := processed + [x];
      }
      x := x + 1;
    }
    scanned := table[..];
  }

  /** Lines 260-270, once per processed link: the folder counter after `linkLoop` links.
      From a folder that is not full, the counter accounts for `linkLoop` more rasters
      when they are saved and stays put when they are not; from the start it stands at
      folder `linkLoop div 100` holding `linkLoop mod 100` rasters. */
  method CountLinks(counter: Shards.Counter, save: bool, linkLoop: nat) returns (counterOut: Shards.Counter)
    ensures counterOut == Shards.Advance(counter, save, linkLoop)
    ensures counter.written < Shards.GridsPerFolder ==>
              && counterOut.written < Shards.GridsPerFolder
              && Shards.Saved(counterOut) == Shards.Saved(counter) + (if save then linkLoop else 0)
    ensures !save && counter.written < Shards.GridsPerFolder ==> counterOut == counter
    ensures save && counter == Shards.Start ==>
              counterOut == Shards.Counter(linkLoop % Shards.GridsPerFolder, linkLoop / Shards.GridsPerFolder)
  {
    counterOut := counter;
    var k := 0;
    while k < linkLoop
      invariant 0 <= k <= linkLoop
      invariant counterOut == Shards.Advance(counter, save, k)
    {
      counterOut := Shards.RecordLink(counterOut, save);
      k := k + 1;
    }
    if !save && counter.written < Shards.GridsPerFolder {
      Shards.UnsavedRasters(counter, linkLoop);
    }
    if save && counter == Shards.Start {
      Shards.SavedRasters(linkLoop);
    }
  }

  /** One radius pass. It returns the table's types afterwards, the rows processed in
      order (their number is `linkLoop`), and the folder counter afterwards. */
  method RadiusPass(types: seq<int>, pairs: seq<Pair>, save: bool, counter: Shards.Counter)
    returns (final: seq<int>, processed: seq<nat>, counterOut: Shards.Counter)
    requires |types| == |pairs|
    ensures (final, processed) == Pass(types, pairs)
    ensures counterOut == Shards.Advance(counter, save, |processed|)
    ensures NonNegative(types) ==>
              forall i, j :: 0 <= i < j < |processed| ==> !SameCores(pairs[processed[i]], pairs[processed[j]])
    ensures NonNegative(types) ==> |processed| == |ActiveKeys(types, pairs)|
    ensures WellFormed(types) ==>
              forall y :: 0 <= y < |types| ==>
                final[y] == (if types[y] == 0 && Covered(types, pairs, y, y) then Mark else types[y])
  {
    var scanned;
    scanned, processed := ScanRows(types, pairs);
    counterOut := CountLinks(counter, save, |processed|);
    var n := |scanned|;
    var table := new int[n](i requires 0 <= i < n => scanned[i]);
    RestoreRows(table);
    final := table[..];
    assert final == Restore(scanned);
    PassProperties(types, pairs);
  }

  /** One step of the scan, unfolded. */
  lemma ScanStep(types: seq<int>, pairs: seq<Pair>, x: nat)
    requires |types| == |pairs| && x < |types|
    ensures Scan(types, pairs, x + 1) == Visit(Scan(types, pairs, x), pairs, x)
    ensures Processed(types, pairs, x + 1) ==
              Processed(types, pairs, x) + (if Active(Scan(types, pairs, x)[x]) then [x] else [])
  {
  }

  lemma PassProperties(types: seq<int>, pairs: seq<Pair>)
    requires |types| == |pairs|
    ensures var processed := Pass(types, pairs).1;
            NonNegative(types) ==>
              forall i, j :: 0 <= i < j < |processed| ==> !SameCores(pairs[processed[i]], pairs[processed[j]])
    ensures NonNegative(types) ==> |Pass(types, pairs).1| == |ActiveKeys(types, pairs)|
    ensures WellFormed(types) ==>
              forall y :: 0 <= y < |types| ==>
                Pass(types, pairs).0[y] == (if types[y] == 0 && Covered(types, pairs, y, y) then Mark else types[y])
  {
    if NonNegative(types) {
      ProcessedPairsDistinct(types, pairs);
      ProcessedCount(types, pairs);
    }
    if WellFormed(types) {
      PassRestores(types, pairs);
    }
  }
}

=== FILE: links.dfy ===
/** The link table of step 6 and the per-radius dedup pass over its `linkType` column
    (toolbox/scripts/s6_barriers.py, lines 131-274). The pass is given here as a
    functional reference: rows are visited in order, an active row marks every later
    row with the same cores by adding 1000 to its type, and at the end every type above
    1000 loses 1000 again. */
module Links {

  /** The overlay added to a row's type while it is disabled for the current radius. */
  const Mark: int := 1000

  /** A pair of core numbers, in the order of the two core columns. */
  datatype Pair = Pair(first: int, second: int)

  /** One row of the link table: its two cores and its type code. */
  datatype Link = Link(core1: int, core2: int, linkType: int)

  /** The test at lines 151-152: a row is processed when its current type lies
      strictly between 0 and 1000. */
  predicate Active(t: int) {
    0 < t < Mark
  }

  /** The two cores in ascending order, as `npy.sort` leaves each row (line 133). */
  function SortPair(a: int, b: int): (p: Pair)
    ensures p.first <= p.second
    ensures (p.first == a && p.second == b) || (p.first == b && p.second == a)
  {
    if a <= b then Pair(a, b) else Pair(b, a)
  }

  /** The comparison at lines 253-256: the same cores, in the same or in the swapped
      order. */
  predicate SameCores(p: Pair, q: Pair) {
    (p.first == q.first && p.second == q.second) || (p.first == q.second && p.second == q.first)
  }

  /** The unordered pair as a canonical key. */
  function Canon(p: Pair): Pair {
    SortPair(p.first, p.second)
  }

  /** `SameCores` holds exactly when the canonical keys agree, so it is an equivalence. */
  lemma SameCoresIffCanon(p: Pair, q: Pair)
    ensures SameCores(p, q) <==> Canon(p) == Canon(q)
  {
  }

  /** On sorted pairs the swapped-order branch only matches a pair whose four core
      numbers are all equal, which the same-order branch already matched. */
  lemma SwappedBranchOnSortedPairs(p: Pair, q: Pair)
    requires p.first <= p.second && q.first <= q.second
    requires p.first == q.second && p.second == q.first
    ensures p.first == p.second == q.first == q.second
    ensures p == q
  {
  }

  /** The per-row sorted core pairs (`coreList`, lines 132-133). */
  function CoreList(links: seq<Link>): (pairs: seq<Pair>)
    ensures |pairs| == |links|
    ensures forall i :: 0 <= i < |links| ==>
              pairs[i].first <= pairs[i].second
              && SameCores(pairs[i], Pair(links[i].core1, links[i].core2))
  {
    seq(|links|, i requires 0 <= i < |links| => SortPair(links[i].core1, links[i].core2))
  }

  /** The `linkType` column. */
  function Types(links: seq<Link>): (types: seq<int>)
    ensures |types| == |links|
    ensures forall i :: 0 <= i < |links| ==> types[i] == links[i].linkType
  {
    seq(|links|, i requires 0 <= i < |links| => links[i].linkType)
  }

  /** The number of active rows: the corridor-link count that must be non-zero for
      the run to go on (lines 76-80). */
  function CountActive(types: seq<int>): (n: nat)
    ensures n <= |types|
    ensures n == 0 <==> forall i :: 0 <= i < |types| ==> !Active(types[i])
  {
    if |types| == 0 then 0
    else CountActive(types[..|types| - 1]) + (if Active(types[|types| - 1]) then 1 else 0)
  }

  /** Visiting row `x` of the pass: when its current type is active, every later row
      with the same cores gets 1000 added (lines 250-258); otherwise nothing changes. */
  function Visit(cur: seq<int>, pairs: seq<Pair>, x: nat): (next: seq<int>)
    requires |cur| == |pairs| && x < |cur|
    ensures |next| == |cur|
  {
    if Active(cur[x]) then
      seq(|cur|, y requires 0 <= y < |cur| =>
        if x < y && SameCores(pairs[y], pairs[x]) then cur[y] + Mark else cur[y])
    else
      cur
  }

  /** The types after rows `0 .. k-1` have been visited. */
  function Scan(types: seq<int>, pairs: seq<Pair>, k: nat): (cur: seq<int>)
    requires |types| == |pairs| && k <= |types|
    ensures |cur| == |types|
  {
    if k == 0 then types else Visit(Scan(types, pairs, k - 1), pairs, k - 1)
  }

  /** The rows processed among the first `k`, in order: a row is processed exactly
      when its type is active at the moment the pass reaches it. */
  function Processed(types: seq<int>, pairs: seq<Pair>, k: nat): (rows: seq<nat>)
    requires |types| == |pairs| && k <= |types|
    ensures Increasing(rows)
    ensures forall i :: 0 <= i < |rows| ==> rows[i] < k
    ensures forall x :: x in rows <==> 0 <= x < k && Active(Scan(types, pairs, x)[x])
  {
    if k == 0 then []
    else
      Processed(types, pairs, k - 1)
      + (if Active(Scan(types, pairs, k - 1)[k - 1]) then [k - 1] else [])
  }

  /** The restore at lines 272-274: only types strictly above 1000 lose the overlay,
      so a type ends at most 1000 exactly when it carried at most one overlay on a
      type of at most 1000, and a positive type stays positive. */
  function RestoreType(v: int): (w: int)
    ensures w == v || w + Mark == v
    ensures v <= Mark ==> w == v
    ensures Mark < v ==> w + Mark == v
    ensures w <= Mark <==> v <= 2 * Mark
    ensures 0 < v ==> 0 < w
    ensures 0 <= v ==> 0 <= w
  {
    if v > Mark then v - Mark else v
  }

  /** The restore applied to the whole table. */
  function Restore(cur: seq<int>): (r: seq<int>)
    ensures |r| == |cur|
    ensures forall i :: 0 <= i < |r| ==> r[i] == cur[i] || r[i] + Mark == cur[i]
    ensures forall i :: 0 <= i < |r| && cur[i] <= Mark ==> r[i] == cur[i]
    ensures forall i :: 0 <= i < |r| && Mark < cur[i] ==> r[i] + Mark == cur[i]
    ensures forall i :: 0 <= i < |r| ==> (r[i] <= Mark <==> cur[i] <= 2 * Mark)
    ensures forall i :: 0 <= i < |r| && 0 <= cur[i] ==> 0 <= r[i]
  {
    seq(|cur|, i requires 0 <= i < |cur| => RestoreType(cur[i]))
  }

  /** One full radius pass: the types left behind and the rows processed. */
  function Pass(types: seq<int>, pairs: seq<Pair>): (res: (seq<int>, seq<nat>))
    requires |types| == |pairs|
    ensures |res.0| == |types|
    ensures Increasing(res.1) && forall i :: 0 <= i < |res.1| ==> res.1[i] < |types|
    ensures forall x :: x in res.1 <==> 0 <= x < |types| && Active(Scan(types, pairs, x)[x])
  {
    (Restore(Scan(types, pairs, |types|)), Processed(types, pairs, |types|))
  }

  // ---------------------------------------------------------------------------
  // Properties of the pass

  /** Strictly increasing: a list of rows in table order, each at most once. */
  ghost predicate Increasing(a: seq<nat>) {
    forall i, j :: 0 <= i < j < |a| ==> a[i] < a[j]
  }

  ghost predicate NonNegative(types: seq<int>) {
    forall i :: 0 <= i < |types| ==> 0 <= types[i]
  }

  /** Types in 0 .. 1000: the range that a pass maps into itself. */
  ghost predicate WellFormed(types: seq<int>) {
    forall i :: 0 <= i < |types| ==> 0 <= types[i] <= Mark
  }

  /** Some active row before row `y`, and before row `m`, has the same cores as `y`. */
  ghost predicate Covered(types: seq<int>, pairs: seq<Pair>, m: int, y: int)
    requires |types| == |pairs| && 0 <= y < |types|
  {
    exists x :: 0 <= x < m && x < y && Active(types[x]) && SameCores(pairs[x], pairs[y])
  }

  /** Visiting an inactive row changes nothing. Visiting an active row adds exactly
      1000 to every later row with the same cores, in either order, and changes no
      other row. */
  lemma VisitMarksDuplicates(cur: seq<int>, pairs: seq<Pair>, x: nat)
    requires |cur| == |pairs| && x < |cur|
    ensures !Active(cur[x]) ==> Visit(cur, pairs, x) == cur
    ensures forall y :: 0 <= y < |cur| ==>
              (Visit(cur, pairs, x)[y] != cur[y] <==> Active(cur[x]) && x < y && SameCores(pairs[y], pairs[x]))
    ensures forall y :: 0 <= y < |cur| && Visit(cur, pairs, x)[y] != cur[y] ==>
              Visit(cur, pairs, x)[y] == cur[y] + Mark
  {
  }

  /** A scan only ever adds whole overlays of 1000 to a type. */
  lemma {:induction false} ScanAddsOverlays(types: seq<int>, pairs: seq<Pair>, k: nat)
    requires |types| == |pairs| && k <= |types|
    ensures forall y :: 0 <= y < |types| ==>
              types[y] <= Scan(types, pairs, k)[y] && (Scan(types, pairs, k)[y] - types[y]) % Mark == 0
    decreases k
  {
    if k > 0 {
      ScanAddsOverlays(types, pairs, k - 1);
    }
  }

  /** A pass never makes a type negative: what it adds it takes back at most once. */
  lemma PassKeepsNonNegative(types: seq<int>, pairs: seq<Pair>)
    requires |types| == |pairs| && NonNegative(types)
    ensures NonNegative(Pass(types, pairs).0)
  {
    ScanAddsOverlays(types, pairs, |types|);
  }

  /** Row `x` is the first active row of its core pair. */
  ghost predicate FirstOfPair(types: seq<int>, pairs: seq<Pair>, x: int)
    requires |types| == |pairs| && 0 <= x < |types|
  {
    Active(types[x]) && !Covered(types, pairs, x, x)
  }

  /** Visiting a row never changes that row or any row before it. */
  lemma {:induction false} ScanSettles(types: seq<int>, pairs: seq<Pair>, k: nat, y: nat)
    requires |types| == |pairs| && y <= k <= |types| && y < |types|
    ensures Scan(types, pairs, k)[y] == Scan(types, pairs, y)[y]
    decreases k
  {
    if y < k {
      ScanSettles(types, pairs, k - 1, y);
    }
  }

  /** With non-negative types, after `k` rows have been visited each row carries its
      original type plus 1000 exactly when an earlier active row (among the first `k`)
      has the same cores: a row is marked at most once. */
  lemma {:induction false} ScanMarksOnce(types: seq<int>, pairs: seq<Pair>, k: nat)
    requires |types| == |pairs| && k <= |types| && NonNegative(types)
    ensures forall y :: 0 <= y < |types| ==>
              Scan(types, pairs, k)[y] == types[y] + (if Covered(types, pairs, k, y) then Mark else 0)
    decreases k
  {
    if k > 0 {
      var x := k - 1;
      ScanMarksOnce(types, pairs, x);
      var cur := Scan(types, pairs, x);
      assert cur[x] == types[x] + (if Covered(types, pairs, x, x) then Mark else 0);
      forall y | 0 <= y < |types|
        ensures Scan(types, pairs, k)[y] == types[y] + (if Covered(types, pairs, k, y) then Mark else 0)
      {
        if x < y && SameCores(pairs[y], pairs[x]) {
          if Active(types[x]) {
            assert Covered(types, pairs, k, y);
            if Covered(types, pairs, x, x) {
              var w :| 0 <= w < x && w < x && Active(types[w]) && SameCores(pairs[w], pairs[x]);
              assert Covered(types, pairs, x, y);
            }
          } else {
            CoveredExtend(types, pairs, k, y);
          }
        } else {
          CoveredExtend(types, pairs, k, y);
        }
      }
    }
  }

  /** Row `k-1` adds nothing to `Covered` unless it is active, before `y` and has the
      same cores as `y`. */
  lemma CoveredExtend(types: seq<int>, pairs: seq<Pair>, k: nat, y: nat)
    requires |types| == |pairs| && 0 < k <= |types| && y < |types|
    requires !(k - 1 < y && Active(types[k - 1]) && SameCores(pairs[k - 1], pairs[y]))
    ensures Covered(types, pairs, k, y) == Covered(types, pairs, k - 1, y)
  {
    if Covered(types, pairs, k, y) {
      var w :| 0 <= w < k && w < y && Active(types[w]) && SameCores(pairs[w], pairs[y]);
      assert w != k - 1;
    }
  }

  /** With non-negative types a row is processed exactly when it is the first active
      row of its core pair. */
  lemma ProcessedIsFirstOfPair(types: seq<int>, pairs: seq<Pair>, x: nat)
    requires |types| == |pairs| && x < |types| && NonNegative(types)
    ensures Active(Scan(types, pairs, x)[x]) <==> FirstOfPair(types, pairs, x)
  {
    ScanMarksOnce(types, pairs, x);
  }

  lemma CoveredUpTo(types: seq<int>, pairs: seq<Pair>, m: int, y: nat)
    requires |types| == |pairs| && y < |types| && y <= m
    ensures Covered(types, pairs, m, y) == Covered(types, pairs, y, y)
  {
    if Covered(types, pairs, m, y) {
      var w :| 0 <= w < m && w < y && Active(types[w]) && SameCores(pairs[w], pairs[y]);
      assert w < y;
    }
  }

  /** The round trip of the +1000 / -1000 overlay, for non-negative types. A row of
      type 1 .. 1000 gets its type back. A row of type 0 ends at 1000 when an earlier
      active row had its cores, because the restore only lowers types above 1000. A
      row above 1000 keeps its type when it was marked and loses 1000 otherwise. */
  lemma PassRestores(types: seq<int>, pairs: seq<Pair>)
    requires |types| == |pairs| && NonNegative(types)
    ensures forall y :: 0 <= y < |types| && 1 <= types[y] <= Mark ==>
              Pass(types, pairs).0[y] == types[y]
    ensures forall y :: 0 <= y < |types| && types[y] == 0 ==>
              Pass(types, pairs).0[y] == (if Covered(types, pairs, y, y) then Mark else 0)
    ensures forall y :: 0 <= y < |types| && Mark < types[y] ==>
              Pass(types, pairs).0[y] == (if Covered(types, pairs, y, y) then types[y] else types[y] - Mark)
  {
    ScanMarksOnce(types, pairs, |types|);
    forall y | 0 <= y < |types| {
      CoveredUpTo(types, pairs, |types|, y);
    }
  }

  /** With non-negative types the rows processed by a pass are exactly the first
      active rows of their core pairs. */
  lemma ProcessedRowsAreFirstOfPair(types: seq<int>, pairs: seq<Pair>)
    requires |types| == |pairs| && NonNegative(types)
    ensures forall x :: 0 <= x < |types| ==>
              (x in Pass(types, pairs).1 <==> FirstOfPair(types, pairs, x))
    ensures FirstRows(types, pairs, Pass(types, pairs).1)
  {
    forall x | 0 <= x < |types| {
      ProcessedIsFirstOfPair(types, pairs, x);
    }
  }

  /** `rows` lists, in increasing order, exactly the first active rows of their core
      pairs. */
  ghost predicate FirstRows(types: seq<int>, pairs: seq<Pair>, rows: seq<nat>)
    requires |types| == |pairs|
  {
    && Increasing(rows)
    && (forall i :: 0 <= i < |rows| ==> rows[i] < |types|)
    && (forall x :: 0 <= x < |types| ==> (x in rows <==> FirstOfPair(types, pairs, x)))
  }

  /** No two of the first active rows share their cores. */
  lemma FirstRowsDistinct(types: seq<int>, pairs: seq<Pair>, rows: seq<nat>)
    requires |types| == |pairs| && FirstRows(types, pairs, rows)
    ensures forall i, j :: 0 <= i < j < |rows| ==> !SameCores(pairs[rows[i]], pairs[rows[j]])
  {
    forall i, j | 0 <= i < j < |rows|
      ensures !SameCores(pairs[rows[i]], pairs[rows[j]])
    {
      assert rows[i] in rows && rows[j] in rows;
      if SameCores(pairs[rows[i]], pairs[rows[j]]) {
        assert Covered(types, pairs, rows[j], rows[j]);
        assert false;
      }
    }
  }

  /** With non-negative types no two processed rows share their cores: each
      unordered core pair is processed at most once per radius. */
  lemma ProcessedPairsDistinct(types: seq<int>, pairs: seq<Pair>)
    requires |types| == |pairs| && NonNegative(types)
    ensures var rows := Pass(types, pairs).1;
            forall i, j :: 0 <= i < j < |rows| ==> !SameCores(pairs[rows[i]], pairs[rows[j]])
  {
    ProcessedRowsAreFirstOfPair(types, pairs);
    FirstRowsDistinct(types, pairs, Pass(types, pairs).1);
  }

  /** Every active row shares its cores with the first active row of its pair. */
  lemma {:induction false} FirstOfPairExists(types: seq<int>, pairs: seq<Pair>, x: nat)
    requires |types| == |pairs| && x < |types| && Active(types[x])
    ensures exists w :: 0 <= w <= x && FirstOfPair(types, pairs, w) && SameCores(pairs[w], pairs[x])
    decreases x
  {
    if Covered(types, pairs, x, x) {
      var w :| 0 <= w < x && w < x && Active(types[w]) && SameCores(pairs[w], pairs[x]);
      FirstOfPairExists(types, pairs, w);
      var v :| 0 <= v <= w && FirstOfPair(types, pairs, v) && SameCores(pairs[v], pairs[w]);
      assert SameCores(pairs[v], pairs[x]);
    } else {
      assert FirstOfPair(types, pairs, x);
    }
  }

  /** The distinct unordered core pairs among the active rows. */
  ghost function ActiveKeys(types: seq<int>, pairs: seq<Pair>): set<Pair>
    requires |types| == |pairs|
  {
    set x | 0 <= x < |types| && Active(types[x]) :: Canon(pairs[x])
  }

  /** The keys of a list of rows. */
  ghost function RowKeys(pairs: seq<Pair>, rows: seq<nat>): set<Pair>
    requires forall i :: 0 <= i < |rows| ==> rows[i] < |pairs|
  {
    set i | 0 <= i < |rows| :: Canon(pairs[rows[i]])
  }

  /** The keys of a list of rows, one row at a time. */
  lemma RowKeysSnoc(pairs: seq<Pair>, rows: seq<nat>)
    requires 0 < |rows| && forall i :: 0 <= i < |rows| ==> rows[i] < |pairs|
    ensures RowKeys(pairs, rows) == RowKeys(pairs, rows[..|rows| - 1]) + {Canon(pairs[rows[|rows| - 1]])}
  {
    var n := |rows| - 1;
    var front := rows[..n];
    forall p | p in RowKeys(pairs, rows) ensures p in RowKeys(pairs, front) + {Canon(pairs[rows[n]])} {
      var i :| 0 <= i < |rows| && p == Canon(pairs[rows[i]]);
      if i < n {
        assert front[i] == rows[i];
      }
    }
    forall p | p in RowKeys(pairs, front) ensures p in RowKeys(pairs, rows) {
      var i :| 0 <= i < |front| && p == Canon(pairs[front[i]]);
      assert front[i] == rows[i];
    }
  }

  /** Rows with pairwise different keys have as many keys as rows. */
  lemma {:induction false} DistinctKeysCount(pairs: seq<Pair>, rows: seq<nat>)
    requires forall i :: 0 <= i < |rows| ==> rows[i] < |pairs|
    requires forall i, j :: 0 <= i < j < |rows| ==> Canon(pairs[rows[i]]) != Canon(pairs[rows[j]])
    ensures |RowKeys(pairs, rows)| == |rows|
  {
    if |rows| > 0 {
      var n := |rows| - 1;
      var front := rows[..n];
      assert forall i :: 0 <= i < |front| ==> front[i] == rows[i];
      DistinctKeysCount(pairs, front);
      RowKeysSnoc(pairs, rows);
      var last := Canon(pairs[rows[n]]);
      assert last !in RowKeys(pairs, front);
    }
  }

  /** Every key of a first active row is the key of an active row. */
  lemma FirstRowsKeysActive(types: seq<int>, pairs: seq<Pair>, rows: seq<nat>)
    requires |types| == |pairs| && FirstRows(types, pairs, rows)
    ensures RowKeys(pairs, rows) <= ActiveKeys(types, pairs)
  {
    forall p | p in RowKeys(pairs, rows) ensures p in ActiveKeys(types, pairs) {
      var i :| 0 <= i < |rows| && p == Canon(pairs[rows[i]]);
      assert rows[i] in rows;
      assert FirstOfPair(types, pairs, rows[i]);
    }
  }

  /** Every key of an active row is the key of a first active row. */
  lemma ActiveKeysFirstRows(types: seq<int>, pairs: seq<Pair>, rows: seq<nat>)
    requires |types| == |pairs| && FirstRows(types, pairs, rows)
    ensures ActiveKeys(types, pairs) <= RowKeys(pairs, rows)
  {
    forall p | p in ActiveKeys(types, pairs) ensures p in RowKeys(pairs, rows) {
      var x :| 0 <= x < |types| && Active(types[x]) && p == Canon(pairs[x]);
      FirstOfPairExists(types, pairs, x);
      var w :| 0 <= w <= x && FirstOfPair(types, pairs, w) && SameCores(pairs[w], pairs[x]);
      SameCoresIffCanon(pairs[w], pairs[x]);
      assert w in rows;
      var i :| 0 <= i < |rows| && rows[i] == w;
    }
  }

  /** There are as many first active rows as distinct unordered core pairs among the
      active rows. */
  lemma FirstRowsCount(types: seq<int>, pairs: seq<Pair>, rows: seq<nat>)
    requires |types| == |pairs| && FirstRows(types, pairs, rows)
    ensures |rows| == |ActiveKeys(types, pairs)|
  {
    FirstRowsDistinct(types, pairs, rows);
    forall i, j | 0 <= i < j < |rows|
      ensures Canon(pairs[rows[i]]) != Canon(pairs[rows[j]])
    {
      SameCoresIffCanon(pairs[rows[i]], pairs[rows[j]]);
    }
    DistinctKeysCount(pairs, rows);
    FirstRowsKeysActive(types, pairs, rows);
    ActiveKeysFirstRows(types, pairs, rows);
    assert RowKeys(pairs, rows) == ActiveKeys(types, pairs);
  }

  /** With non-negative types the number of links processed in a pass (`linkLoop`)
      equals the number of distinct unordered core pairs among the active rows. */
  lemma ProcessedCount(types: seq<int>, pairs: seq<Pair>)
    requires |types| == |pairs| && NonNegative(types)
    ensures |Pass(types, pairs).1| == |ActiveKeys(types, pairs)|
  {
    ProcessedRowsAreFirstOfPair(types, pairs);
    FirstRowsCount(types, pairs, Pass(types, pairs).1);
  }

  /** Until the first active row is reached nothing is processed. */
  lemma {:induction false} ScanBeforeFirstActive(types: seq<int>, pairs: seq<Pair>, k: nat)
    requires |types| == |pairs| && k <= |types|
    requires forall x :: 0 <= x < k ==> !Active(types[x])
    ensures Scan(types, pairs, k) == types
    decreases k
  {
    if k > 0 {
      ScanBeforeFirstActive(types, pairs, k - 1);
    }
  }

  /** The first active row of the table is processed and gets its own type back,
      whatever the other types are. */
  lemma FirstActiveRowKept(types: seq<int>, pairs: seq<Pair>, x0: nat)
    requires |types| == |pairs| && x0 < |types| && Active(types[x0])
    requires forall x :: 0 <= x < x0 ==> !Active(types[x])
    ensures x0 in Pass(types, pairs).1
    ensures Pass(types, pairs).0[x0] == types[x0]
  {
    ScanBeforeFirstActive(types, pairs, x0);
    ScanSettles(types, pairs, |types|, x0);
  }

  /** A pass over a table with an active row processes at least one link and leaves
      an active row behind, so every later radius has a link to process too. */
  lemma PassKeepsActiveRow(types: seq<int>, pairs: seq<Pair>)
    requires |types| == |pairs| && 0 < CountActive(types)
    ensures 0 < |Pass(types, pairs).1|
    ensures 0 < CountActive(Pass(types, pairs).0)
  {
    var x0 := 0;
    while !Active(types[x0])
      invariant x0 < |types|
      invariant exists i :: x0 <= i < |types| && Active(types[i])
      invariant forall x :: 0 <= x < x0 ==> !Active(types[x])
      decreases |types| - x0
    {
      x0 := x0 + 1;
    }
    FirstActiveRowKept(types, pairs, x0);
  }

  lemma CoveredSameActivity(t: seq<int>, t2: seq<int>, pairs: seq<Pair>, m: int, y: nat)
    requires |t| == |pairs| && |t2| == |pairs| && y < |pairs|
    requires forall i :: 0 <= i < |t| ==> (Active(t[i]) <==> Active(t2[i]))
    ensures Covered(t, pairs, m, y) == Covered(t2, pairs, m, y)
  {
    if Covered(t, pairs, m, y) {
      var w :| 0 <= w < m && w < y && Active(t[w]) && SameCores(pairs[w], pairs[y]);
      assert Active(t2[w]);
    }
    if Covered(t2, pairs, m, y) {
      var w :| 0 <= w < m && w < y && Active(t2[w]) && SameCores(pairs[w], pairs[y]);
      assert Active(t[w]);
    }
  }

  lemma SameActivitySameVisit(t: seq<int>, t2: seq<int>, pairs: seq<Pair>, x: nat)
    requires |t| == |pairs| && |t2| == |pairs| && x < |pairs|
    requires NonNegative(t) && NonNegative(t2)
    requires forall i :: 0 <= i < |t| ==> (Active(t[i]) <==> Active(t2[i]))
    ensures Active(Scan(t, pairs, x)[x]) == Active(Scan(t2, pairs, x)[x])
  {
    ProcessedIsFirstOfPair(t, pairs, x);
    ProcessedIsFirstOfPair(t2, pairs, x);
    CoveredSameActivity(t, t2, pairs, x, x);
  }

  /** With non-negative types, which rows a pass processes depends only on which
      rows are active. */
  lemma {:induction false} SameActivitySameProcessed(t: seq<int>, t2: seq<int>, pairs: seq<Pair>, k: nat)
    requires |t| == |pairs| && |t2| == |pairs| && k <= |pairs|
    requires NonNegative(t) && NonNegative(t2)
    requires forall i :: 0 <= i < |t| ==> (Active(t[i]) <==> Active(t2[i]))
    ensures Processed(t, pairs, k) == Processed(t2, pairs, k)
    decreases k
  {
    if k > 0 {
      SameActivitySameProcessed(t, t2, pairs, k - 1);
      SameActivitySameVisit(t, t2, pairs, k - 1);
      var b1 := Active(Scan(t, pairs, k - 1)[k - 1]);
      var b2 := Active(Scan(t2, pairs, k - 1)[k - 1]);
      assert b1 == b2;
      assert Processed(t, pairs, k) == Processed(t, pairs, k - 1) + (if b1 then [k - 1] else []);
      assert Processed(t2, pairs, k) == Processed(t2, pairs, k - 1) + (if b2 then [k - 1] else []);
    }
  }

  /** On a table whose types lie in 0 .. 1000 a pass keeps the types in that range,
      keeps every row's activity, and therefore the next radius processes exactly the
      same rows again. */
  lemma PassStable(types: seq<int>, pairs: seq<Pair>)
    requires |types| == |pairs| && WellFormed(types)
    ensures WellFormed(Pass(types, pairs).0)
    ensures forall y :: 0 <= y < |types| ==> (Active(Pass(types, pairs).0[y]) <==> Active(types[y]))
    ensures Pass(Pass(types, pairs).0, pairs).1 == Pass(types, pairs).1
  {
    var next := Pass(types, pairs).0;
    PassRestores(types, pairs);
    SameActivitySameProcessed(next, types, pairs, |types|);
  }

  /** A row of negative type is lifted into the active range by the overlay: type -1
      after an active row with the same cores becomes 999, is processed a second time,
      and stays at 999 after the restore. */
  lemma NegativeTypeLifted()
    ensures Pass([1, -1], [Pair(1, 2), Pair(1, 2)]) == ([1, 999], [0, 1])
  {
    var types, pairs := [1, -1], [Pair(1, 2), Pair(1, 2)];
    assert Scan(types, pairs, 1) == [1, 999];
    assert Scan(types, pairs, 2) == [1, 999];
    assert Restore([1, 999]) == [1, 999];
    assert Processed(types, pairs, 1) == [0];
    assert Processed(types, pairs, 2) == [0, 1];
  }

  /** A duplicate row of type 0 ends the pass at 1000. */
  lemma ZeroTypeEndsAtMark()
    ensures Pass([1, 0], [Pair(1, 2), Pair(1, 2)]) == ([1, 1000], [0])
  {
    var types, pairs := [1, 0], [Pair(1, 2), Pair(1, 2)];
    assert Scan(types, pairs, 1) == [1, 1000];
    assert Scan(types, pairs, 2) == [1, 1000];
    assert Restore([1, 1000]) == [1, 1000];
    assert Processed(types, pairs, 1) == [0];
    assert Processed(types, pairs, 2) == [0];
  }
}

=== FILE: mosaic.dfy ===
/** The copy-then-maximum folds of step 6: the running per-radius mosaic over the
    processed links (toolbox/scripts/s6_barriers.py, lines 214-243) and the summary
    mosaics across radii (lines 326-386). */
module Mosaic {
  import opened Wrappers
  import opened Pixels

  /** Every raster of the list covers the grid of width `w`. */
  ghost predicate OnGrid(rs: seq<Raster>, w: nat) {
    forall k :: 0 <= k < |rs| ==> |rs[k]| == w
  }

  /** `m` is the cellwise maximum of the list at cell `i`: NoData exactly when every
      raster has NoData there, otherwise a value some raster has there and no raster
      exceeds. */
  ghost predicate IsCellMax(rs: seq<Raster>, i: nat, m: Pixel)
    requires forall k :: 0 <= k < |rs| ==> i < |rs[k]|
  {
    && (m.None? <==> forall k :: 0 <= k < |rs| ==> rs[k][i].None?)
    && (m.Some? ==> exists k :: 0 <= k < |rs| && rs[k][i] == m)
    && (forall k :: 0 <= k < |rs| && rs[k][i].Some? ==> m.Some? && rs[k][i].value <= m.value)
  }

  /** The running mosaic: the first raster is copied, every later one is combined with
      the running result by a MAXIMUM mosaic. Each cell of the result is the cellwise
      maximum of all the rasters. */
  function MosaicFold(rs: seq<Raster>): (m: Raster)
    requires 0 < |rs| && OnGrid(rs, |rs[0]|)
    ensures |m| == |rs[0]|
    ensures forall i :: 0 <= i < |m| ==> IsCellMax(rs, i, m[i])
    decreases |rs|
  {
    if |rs| == 1 then
      rs[0]
    else
      var front := rs[..|rs| - 1];
      var last := rs[|rs| - 1];
      var acc := MosaicFold(front);
      var m := MosaicMax(last, acc);
      FoldStep(rs, front, last, acc, m);
      m
  }

  lemma FoldStep(rs: seq<Raster>, front: seq<Raster>, last: Raster, acc: Raster, m: Raster)
    requires 1 < |rs| && OnGrid(rs, |rs[0]|)
    requires front == rs[..|rs| - 1] && last == rs[|rs| - 1]
    requires |acc| == |rs[0]| && forall i :: 0 <= i < |acc| ==> IsCellMax(front, i, acc[i])
    requires |m| == |acc| && forall i :: 0 <= i < |m| ==> m[i] == MaxPixel(last[i], acc[i])
    ensures forall i :: 0 <= i < |m| ==> IsCellMax(rs, i, m[i])
  {
    forall i | 0 <= i < |m|
      ensures IsCellMax(rs, i, m[i])
    {
      assert forall k :: 0 <= k < |front| ==> front[k] == rs[k];
      if m[i].Some? {
        if m[i] == last[i] {
          assert rs[|rs| - 1][i] == m[i];
        } else {
          var k :| 0 <= k < |front| && front[k][i] == acc[i];
          assert rs[k][i] == m[i];
        }
      }
    }
  }

  /** There is only one cellwise maximum. */
  lemma CellMaxUnique(rs: seq<Raster>, i: nat, m1: Pixel, m2: Pixel)
    requires forall k :: 0 <= k < |rs| ==> i < |rs[k]|
    requires IsCellMax(rs, i, m1) && IsCellMax(rs, i, m2)
    ensures m1 == m2
  {
    if m1.Some? {
      var k1 :| 0 <= k1 < |rs| && rs[k1][i] == m1;
      var k2 :| 0 <= k2 < |rs| && rs[k2][i] == m2;
    }
  }

  /** The mosaic does not depend on the order in which the rasters are combined. */
  lemma MosaicOrderIndependent(rs: seq<Raster>, qs: seq<Raster>)
    requires 0 < |rs| && OnGrid(rs, |rs[0]|)
    requires 0 < |qs| && OnGrid(qs, |rs[0]|)
    requires multiset(rs) == multiset(qs)
    ensures MosaicFold(rs) == MosaicFold(qs)
  {
    var w := |rs[0]|;
    var a, b := MosaicFold(rs), MosaicFold(qs);
    forall r ensures r in rs <==> r in qs {
      assert r in rs <==> r in multiset(rs);
      assert r in qs <==> r in multiset(qs);
    }
    forall i | 0 <= i < w
      ensures a[i] == b[i]
    {
      SameMembersSameCellMax(rs, qs, i, a[i]);
      CellMaxUnique(qs, i, a[i], b[i]);
    }
  }

  lemma SameMembersSameCellMax(rs: seq<Raster>, qs: seq<Raster>, i: nat, m: Pixel)
    requires forall k :: 0 <= k < |rs| ==> i < |rs[k]|
    requires forall k :: 0 <= k < |qs| ==> i < |qs[k]|
    requires forall r :: r in rs <==> r in qs
    requires IsCellMax(rs, i, m)
    ensures IsCellMax(qs, i, m)
  {
    forall k | 0 <= k < |qs| ensures exists j :: 0 <= j < |rs| && rs[j] == qs[k] {
      assert qs[k] in rs;
    }
    if m.Some? {
      var k :| 0 <= k < |rs| && rs[k][i] == m;
      assert rs[k] in qs;
      var j :| 0 <= j < |qs| && qs[j] == rs[k];
      assert qs[j][i] == m;
    } else {
      forall k | 0 <= k < |qs| ensures qs[k][i].None? {
        assert qs[k] in rs;
        var j :| 0 <= j < |rs| && rs[j] == qs[k];
      }
    }
  }
}

=== FILE: pixels.dfy ===
/** Per-pixel meaning of the raster operations step 6 applies
    (toolbox/scripts/s6_barriers.py, lines 128, 175-195, 214-243, 280-281, 309-316).
    A raster is a sequence of cells on a common grid; a cell is a real value or NoData.
    Raster values stand for the source's 32-bit floats, idealised as reals. */
module Pixels {
  import opened Wrappers

  /** One raster cell: `None` is NoData. */
  type Pixel = Option<real>

  /** A raster, cell by cell, on the grid of the resistance surface. */
  type Raster = seq<Pixel>

  /** The restoration gain of one cell for a link of cost-weighted distance `d` at
      radius `r` (lines 175-195): `(d - f1 - f2 - 2r) / 2r`, where `f1`, `f2` are the
      focal minima of the two cores' distance rasters. NoData in either input gives
      NoData. */
  function Gain(d: real, r: int, f1: Pixel, f2: Pixel): (g: Pixel)
    requires 0 < r
    ensures g.Some? <==> f1.Some? && f2.Some?
    ensures g.Some? ==> g.value * (2 * r) as real == d - f1.value - f2.value - (2 * r) as real
    ensures g.Some? ==> (g.value == 0.0 <==> f1.value + f2.value + (2 * r) as real == d)
    ensures g.Some? ==> (0.0 < g.value <==> f1.value + f2.value + (2 * r) as real < d)
  {
    match (f1, f2)
    case (Some(a), Some(b)) =>
      var dia := (2 * r) as real;
      QuotientSign(d - a - b - dia, dia);
      Some((d - a - b - dia) / dia)
    case _ => None
  }

  /** Dividing by a positive real keeps the sign and undoes a multiplication. */
  lemma QuotientSign(n: real, k: real)
    requires 0.0 < k
    ensures (n / k) * k == n
    ensures n / k == 0.0 <==> n == 0.0
    ensures 0.0 < n / k <==> 0.0 < n
  {
    ProductSign(n / k, k);
  }

  /** Multiplying by a positive real keeps the sign. */
  lemma ProductSign(x: real, k: real)
    requires 0.0 < k
    ensures x * k == 0.0 <==> x == 0.0
    ensures 0.0 < x * k <==> 0.0 < x
    ensures x * k < 0.0 <==> x < 0.0
  {
  }

  /** The worked case: distance 100, radius 10, focal minima 40 and 30 give 0.5. */
  lemma GainExample()
    ensures Gain(100.0, 10, Some(40.0), Some(30.0)) == Some(0.5)
  {
  }

  /** A larger focal minimum never gives a larger gain. */
  lemma GainAntitone(d: real, r: int, a: real, a': real, b: real)
    requires 0 < r && a <= a'
    ensures Gain(d, r, Some(a'), Some(b)).value <= Gain(d, r, Some(a), Some(b)).value
  {
    var dia := (2 * r) as real;
    var g, g' := Gain(d, r, Some(a), Some(b)).value, Gain(d, r, Some(a'), Some(b)).value;
    assert g * dia == d - a - b - dia;
    assert g' * dia == d - a' - b - dia;
    assert (g - g') * dia == a' - a;
    ProductSign(g - g', dia);
  }

  /** The gain raster of one link: a cell has a gain exactly where both focal rasters
      have data, and there the gain times `2r` is what the link's distance exceeds the
      two focal minima and `2r` by. */
  function GainRaster(d: real, r: int, f1: Raster, f2: Raster): (g: Raster)
    requires 0 < r && |f1| == |f2|
    ensures |g| == |f1|
    ensures forall i :: 0 <= i < |g| ==> (g[i].Some? <==> f1[i].Some? && f2[i].Some?)
    ensures forall i :: 0 <= i < |g| && f1[i].Some? && f2[i].Some? ==>
              g[i].Some? && g[i].value * (2 * r) as real == d - f1[i].value - f2[i].value - (2 * r) as real
  {
    seq(|f1|, i requires 0 <= i < |f1| => Gain(d, r, f1[i], f2[i]))
  }

  /** The cell rule of a MAXIMUM mosaic: NoData stands for "no value", so a cell with
      data in one input takes that value, and a cell with data in both takes the larger. */
  function MaxPixel(a: Pixel, b: Pixel): (m: Pixel)
    ensures m.None? <==> a.None? && b.None?
    ensures m == a || m == b
    ensures a.Some? ==> m.Some? && a.value <= m.value
    ensures b.Some? ==> m.Some? && b.value <= m.value
  {
    match (a, b)
    case (Some(x), Some(y)) => if x < y then b else a
    case (Some(_), None) => a
    case (None, _) => b
  }

  lemma MaxPixelCommutes(a: Pixel, b: Pixel)
    ensures MaxPixel(a, b) == MaxPixel(b, a)
  {
  }

  lemma MaxPixelAssociates(a: Pixel, b: Pixel, c: Pixel)
    ensures MaxPixel(a, MaxPixel(b, c)) == MaxPixel(MaxPixel(a, b), c)
  {
  }

  /** A MAXIMUM mosaic of two rasters on the same grid: NoData exactly where both
      inputs are NoData, elsewhere the value of one input and no less than either. */
  function MosaicMax(a: Raster, b: Raster): (m: Raster)
    requires |a| == |b|
    ensures |m| == |a|
    ensures forall i :: 0 <= i < |m| ==> (m[i].None? <==> a[i].None? && b[i].None?)
    ensures forall i :: 0 <= i < |m| ==> m[i] == a[i] || m[i] == b[i]
    ensures forall i :: 0 <= i < |m| && a[i].Some? ==> m[i].Some? && a[i].value <= m[i].value
    ensures forall i :: 0 <= i < |m| && b[i].Some? ==> m[i].Some? && b[i].value <= m[i].value
  {
    seq(|a|, i requires 0 <= i < |a| => MaxPixel(a[i], b[i]))
  }

  /** `SetNull(VALUE < 0)` on one cell (lines 280-281): negative gains become NoData,
      every other cell is kept. */
  function DisplayPixel(p: Pixel): (q: Pixel)
    ensures q.Some? <==> p.Some? && 0.0 <= p.value
    ensures q.Some? ==> q == p
  {
    match p
    case Some(v) => if v < 0.0 then None else p
    case None => None
  }

  /** The display mosaic: the per-radius mosaic with negative gains masked out. A cell
      keeps its value exactly when it has data that is not negative. */
  function Display(a: Raster): (m: Raster)
    ensures |m| == |a|
    ensures forall i :: 0 <= i < |m| ==> (m[i].Some? <==> a[i].Some? && 0.0 <= a[i].value)
    ensures forall i :: 0 <= i < |m| && m[i].Some? ==> m[i] == a[i]
  {
    seq(|a|, i requires 0 <= i < |a| => DisplayPixel(a[i]))
  }

  /** The value written into NoData cells of the resistance surface (line 128). */
  const ResistFillValue: real := 1000000000.0

  /** `Con(IsNull(R), 1e9, R)` on one cell: the resistance, or the sentinel where the
      resistance has no data. */
  function FillResistance(p: Pixel): (q: Pixel)
    ensures q.Some?
    ensures p.Some? ==> q == p
    ensures p.None? ==> q.value == ResistFillValue
  {
    match p
    case Some(_) => p
    case None => Some(ResistFillValue)
  }

  /** `CellStatistics(..., "MINIMUM")` on one cell, NoData ignored (the tool's default):
      the smaller data value, NoData only where both inputs are NoData. */
  function MinPixel(a: Pixel, b: Pixel): (m: Pixel)
    ensures m.None? <==> a.None? && b.None?
    ensures m == a || m == b
    ensures a.Some? ==> m.Some? && m.value <= a.value
    ensures b.Some? ==> m.Some? && m.value <= b.value
  {
    match (a, b)
    case (Some(x), Some(y)) => if y < x then b else a
    case (Some(_), None) => a
    case (None, _) => b
  }

  /** The trimmed cell (lines 306-316): the minimum of the grown gain and the filled
      resistance, then `Con(IsNull(fill), fill, min)` puts NoData back wherever the
      grown gain had none. The result keeps the grown raster's NoData footprint, never
      exceeds the grown gain or the local resistance, and is one of the two. */
  function TrimPixel(fill: Pixel, resistance: Pixel): (t: Pixel)
    ensures t.None? <==> fill.None?
    ensures t.Some? ==> t.value <= fill.value && t.value <= FillResistance(resistance).value
    ensures t.Some? ==> t == fill || t == FillResistance(resistance)
  {
    var m := MinPixel(fill, FillResistance(resistance));
    if fill.None? then fill else m
  }

  /** The trimmed raster of one radius: the grown raster's NoData footprint, and in
      every other cell a value that exceeds neither the grown gain nor the filled
      resistance and is one of the two. */
  function Trim(fill: Raster, resistance: Raster): (t: Raster)
    requires |fill| == |resistance|
    ensures |t| == |fill|
    ensures forall i :: 0 <= i < |t| ==> (t[i].None? <==> fill[i].None?)
    ensures forall i :: 0 <= i < |t| && t[i].Some? ==>
              fill[i].Some? && t[i].value <= fill[i].value
              && t[i].value <= FillResistance(resistance[i]).value
              && (t[i] == fill[i] || t[i] == FillResistance(resistance[i]))
  {
    seq(|fill|, i requires 0 <= i < |fill| => TrimPixel(fill[i], resistance[i]))
  }
}

=== FILE: radii.dfy ===
/** The search-radius schedule of step 6 and the configuration check that guards it
    (toolbox/scripts/s6_barriers.py, lines 43-48, 68-72 and the radius loops). */
module Radii {

  /** The three radius parameters as configured, taken to be whole numbers. The
      source converts them to floats and hands them to Python's `range`; only for
      whole-number values does that give the radii listed here. */
  datatype Config = Config(startRadius: int, endRadius: int, radiusStep: int)

  /** The radius parameters after a zero step has been replaced (lines 46-48). */
  datatype Bounds = Bounds(start: int, end: int, step: int)

  /** A zero step means "one radius": the end radius becomes the start radius
      and the step becomes 1. */
  function Normalize(c: Config): (b: Bounds)
    ensures b.step != 0 && b.start == c.startRadius
    ensures c.radiusStep == 0 ==> b.end == c.startRadius && b.step == 1
    ensures c.radiusStep != 0 ==> b.end == c.endRadius && b.step == c.radiusStep
    ensures b.start == b.end <==> c.radiusStep == 0 || c.startRadius == c.endRadius
  {
    if c.radiusStep == 0 then Bounds(c.startRadius, c.startRadius, 1)
    else Bounds(c.startRadius, c.endRadius, c.radiusStep)
  }

  /** Python's `range(start, stop, step)` for a non-zero step: it starts at `start`,
      moves by `step`, stays strictly on the near side of `stop`, and stops at the
      last value whose successor would reach or pass `stop`. */
  function PyRange(start: int, stop: int, step: int): (r: seq<int>)
    requires step != 0
    ensures 0 < |r| ==> r[0] == start
    ensures step > 0 ==> (|r| == 0 <==> stop <= start)
    ensures step > 0 ==> forall i :: 0 <= i < |r| ==> start <= r[i] < stop
    ensures step > 0 && 0 < |r| ==> stop <= r[|r| - 1] + step
    ensures step > 0 ==> forall i, j :: 0 <= i < j < |r| ==> r[i] < r[j]
    ensures step < 0 ==> (|r| == 0 <==> start <= stop)
    ensures step < 0 ==> forall i :: 0 <= i < |r| ==> stop < r[i] <= start
    ensures step < 0 && 0 < |r| ==> r[|r| - 1] + step <= stop
    ensures step < 0 ==> forall i, j :: 0 <= i < j < |r| ==> r[i] > r[j]
    decreases if step > 0 then stop - start else start - stop
  {
    if (0 < step && start < stop) || (step < 0 && stop < start) then
      [start] + PyRange(start + step, stop, step)
    else
      []
  }

  lemma MulMono(i: int, j: int, k: int)
    requires i <= j && 0 < k
    ensures i * k <= j * k
  {
    assert j * k - i * k == (j - i) * k;
  }

  /** Euclidean division is determined by quotient and remainder. */
  lemma DivModUnique(a: int, k: int, q: int, m: int)
    requires 0 < k && a == q * k + m && 0 <= m < k
    ensures a / k == q && a % k == m
  {
    var q0, m0 := a / k, a % k;
    assert a == q0 * k + m0 && 0 <= m0 < k;
    if q0 < q {
      MulMono(q0 + 1, q, k);
      assert false;
    } else if q < q0 {
      MulMono(q + 1, q0, k);
      assert false;
    }
  }

  /** The i-th value of a range is `start + i * step`, for either sign of the step. */
  lemma {:induction false} PyRangeAt(start: int, stop: int, step: int, i: int)
    requires step != 0 && 0 <= i < |PyRange(start, stop, step)|
    ensures PyRange(start, stop, step)[i] == start + i * step
    decreases i
  {
    if i > 0 {
      PyRangeAt(start + step, stop, step, i - 1);
      assert (start + step) + (i - 1) * step == start + i * step;
    }
  }

  /** The radii visited by every radius loop of step 6: `range(start, end + 1, step)`
      after normalisation. */
  function Schedule(c: Config): (r: seq<int>)
    ensures c.radiusStep == 0 ==> r == [c.startRadius]
    ensures c.radiusStep > 0 ==> forall i, j :: 0 <= i < j < |r| ==> r[i] < r[j]
    ensures c.radiusStep > 0 ==> forall i :: 0 <= i < |r| ==> c.startRadius <= r[i] <= c.endRadius
    ensures c.radiusStep > 0 && 0 < |r| ==> c.endRadius < r[|r| - 1] + c.radiusStep
    ensures c.radiusStep > 0 ==> (|r| == 0 <==> c.endRadius < c.startRadius)
    ensures c.radiusStep < 0 && c.startRadius <= c.endRadius ==> r == []
    ensures 0 < |r| ==> r[0] == c.startRadius
  {
    var b := Normalize(c);
    PyRange(b.start, b.end + 1, b.step)
  }

  /** For a positive step a radius is visited exactly when it lies between the start
      and end radii and is a whole number of steps away from the start. */
  lemma ScheduleMembership(c: Config, v: int)
    requires c.radiusStep > 0
    ensures v in Schedule(c) <==>
              c.startRadius <= v <= c.endRadius && (v - c.startRadius) % c.radiusStep == 0
  {
    ScheduleIsRange(c);
    RangeMembership(c.startRadius, c.endRadius + 1, c.radiusStep, v);
  }

  lemma ScheduleIsRange(c: Config)
    requires c.radiusStep > 0
    ensures Schedule(c) == PyRange(c.startRadius, c.endRadius + 1, c.radiusStep)
  {
  }

  /** The values of a range with a positive step. */
  lemma RangeMembership(s: int, stop: int, k: int, v: int)
    requires 0 < k
    ensures v in PyRange(s, stop, k) <==> s <= v < stop && (v - s) % k == 0
  {
    if v in PyRange(s, stop, k) {
      RangeMemberIsStep(s, stop, k, v);
    }
    if s <= v < stop && (v - s) % k == 0 {
      var q := ExactQuotient(v - s, k);
      StepMultipleIsRangeMember(s, stop, k, q);
    }
  }

  /** A value of a range with a positive step is a whole number of steps from the start. */
  lemma RangeMemberIsStep(s: int, stop: int, k: int, v: int)
    requires 0 < k && v in PyRange(s, stop, k)
    ensures s <= v < stop && (v - s) % k == 0
  {
    var r := PyRange(s, stop, k);
    var i :| 0 <= i < |r| && r[i] == v;
    PyRangeAt(s, stop, k, i);
    DivModUnique(v - s, k, i, 0);
  }

  /** The quotient of an exact division. */
  lemma ExactQuotient(a: int, k: int) returns (q: int)
    requires 0 <= a && 0 < k && a % k == 0
    ensures 0 <= q && a == q * k
  {
    q := a / k;
    if q < 0 {
      MulMono(q, -1, k);
      assert false;
    }
  }

  /** `start + q * step` is in the range whenever it is below `stop`. */
  lemma StepMultipleIsRangeMember(s: int, stop: int, k: int, q: int)
    requires 0 < k && 0 <= q && s + q * k < stop
    ensures s + q * k in PyRange(s, stop, k)
  {
    var r := PyRange(s, stop, k);
    MulMono(0, q, k);
    assert 0 < |r|;
    if q < |r| {
      PyRangeAt(s, stop, k, q);
    } else {
      RangeEnd(s, stop, k);
      MulMono(|r|, q, k);
      assert false;
    }
  }

  /** A non-empty range with a positive step reaches `stop` in one more step. */
  lemma RangeEnd(s: int, stop: int, k: int)
    requires 0 < k && 0 < |PyRange(s, stop, k)|
    ensures stop <= s + |PyRange(s, stop, k)| * k
  {
    var n := |PyRange(s, stop, k)|;
    PyRangeAt(s, stop, k, n - 1);
    assert (n - 1) * k + k == n * k;
  }

  /** The end radius is itself visited only when the range from start to end is a
      whole number of steps. */
  lemma EndRadiusIncluded(c: Config)
    requires c.radiusStep > 0
    ensures c.endRadius in Schedule(c) <==>
              c.startRadius <= c.endRadius && (c.endRadius - c.startRadius) % c.radiusStep == 0
  {
    ScheduleMembership(c, c.endRadius);
  }

  /** The guard of lines 68-72, evaluated after the zero-step normalisation: the run
      is refused when the cell size exceeds the start radius or the start radius exceeds
      the (normalised) end radius. A zero step can therefore only be refused for the
      cell size, and a cell size equal to the start radius passes. */
  function Rejected(c: Config, cellSize: real): (bad: bool)
    ensures bad <==> cellSize > c.startRadius as real
                     || (c.radiusStep != 0 && c.startRadius > c.endRadius)
  {
    var b := Normalize(c);
    cellSize > b.start as real || b.start > b.end
  }

  /** Once the guard has passed, every visited radius is at least the cell size. */
  lemma AcceptedRadiiAtLeastCellSize(c: Config, cellSize: real)
    requires !Rejected(c, cellSize)
    ensures forall i :: 0 <= i < |Schedule(c)| ==> cellSize <= Schedule(c)[i] as real
  {
  }
}

=== FILE: shards.dfy ===
/** Folder bookkeeping of step 6: the counter that moves saved barrier rasters to a
    new folder every 100 rasters (toolbox/scripts/s6_barriers.py, lines 83, 131 and
    260-270), and the focal sub-folders numbered by `core div 100` (lines 91-123). */
module Shards {

  /** The most rasters written to one folder. */
  const GridsPerFolder: nat := 100

  /** `numGridsWritten` and `dirCount`: rasters in the current folder, and the index of
      the current folder (0 is the un-numbered first folder). */
  datatype Counter = Counter(written: nat, dirCount: nat)

  /** The counter before any link is processed. */
  const Start: Counter := Counter(0, 0)

  /** The update after one processed link (lines 260-270): a saved raster is counted,
      and a folder that reaches 100 rasters is closed for a new, empty one. The
      folder test runs whether or not the raster was saved. */
  function RecordLink(s: Counter, save: bool): (r: Counter)
    ensures s.written < GridsPerFolder ==> r.written < GridsPerFolder
    ensures s.written < GridsPerFolder ==> Saved(r) == Saved(s) + (if save then 1 else 0)
    ensures !save && s.written < GridsPerFolder ==> r == s
  {
    var w := if save then s.written + 1 else s.written;
    if w == GridsPerFolder then Counter(0, s.dirCount + 1) else Counter(w, s.dirCount)
  }

  /** The rasters a counter stands for: full folders of 100 plus the current one. */
  function Saved(s: Counter): nat {
    s.dirCount * GridsPerFolder + s.written
  }

  /** The counter after `n` more processed links: from a counter whose folder is not
      full, the folder never fills up, and `n` more rasters are accounted for exactly
      when they are saved. */
  function Advance(s: Counter, save: bool, n: nat): (r: Counter)
    ensures s.written < GridsPerFolder ==> r.written < GridsPerFolder
    ensures s.written < GridsPerFolder ==> Saved(r) == Saved(s) + (if save then n else 0)
    decreases n
  {
    if n == 0 then s else RecordLink(Advance(s, save, n - 1), save)
  }

  /** Processing `a` and then `b` links is processing `a + b` links. */
  lemma {:induction false} AdvanceAdd(s: Counter, save: bool, a: nat, b: nat)
    ensures Advance(Advance(s, save, a), save, b) == Advance(s, save, a + b)
    decreases b
  {
    if b > 0 {
      AdvanceAdd(s, save, a, b - 1);
    }
  }

  /** After `n` saved rasters `dirCount == n div 100` and `numGridsWritten == n mod 100`. */
  lemma {:induction false} SavedRasters(n: nat)
    ensures Advance(Start, true, n) == Counter(n % GridsPerFolder, n / GridsPerFolder)
  {
    if n > 0 {
      SavedRasters(n - 1);
    }
  }

  /** Raster `k` (counting from 0) is written with the folder index current after `k`
      saved rasters, which is `k div 100`. */
  lemma RasterFolder(k: nat)
    ensures Advance(Start, true, k).dirCount == k / GridsPerFolder
  {
    SavedRasters(k);
  }

  /** 250 saved rasters fill folders 0 and 1 and leave 50 in folder 2. */
  lemma TwoHundredFiftyRasters()
    ensures Advance(Start, true, 250) == Counter(50, 2)
  {
    SavedRasters(250);
  }

  /** When barrier rasters are not kept the counter never moves. */
  lemma {:induction false} UnsavedRasters(s: Counter, n: nat)
    requires s.written < GridsPerFolder
    ensures Advance(s, false, n) == s
  {
    if n > 0 {
      UnsavedRasters(s, n - 1);
    }
  }

  /** The largest core number (`maxCoreNum`, line 92). */
  function MaxCore(cores: seq<int>): (m: int)
    requires 0 < |cores|
    ensures m in cores
    ensures forall i :: 0 <= i < |cores| ==> cores[i] <= m
  {
    if |cores| == 1 then cores[0]
    else
      var rest := MaxCore(cores[1..]);
      assert forall i :: 1 <= i < |cores| ==> cores[i] == cores[1..][i - 1];
      if cores[0] < rest then rest else cores[0]
  }

  /** The focal sub-folder numbers created for each radius (lines 111-123): only when
      the largest core number exceeds 99, the distinct positive values of `core div 100`.
      Core numbers are never negative in practice; for a negative one Python's floor
      division and Dafny's division agree (both round down for a positive divisor). */
  function FocalSubdirs(cores: seq<int>): (dirs: set<int>)
    requires 0 < |cores|
    ensures forall d :: d in dirs ==> 1 <= d && exists c :: c in cores && c / GridsPerFolder == d
    ensures forall c :: c in cores && GridsPerFolder <= c ==> c / GridsPerFolder in dirs
  {
    if MaxCore(cores) > 99 then
      set c | c in cores && c / GridsPerFolder > 0 :: c / GridsPerFolder
    else
      {}
  }

  /** The focal sub-folders created before the radius loop (lines 102-123), as pairs
      of a radius and a folder number: for every scheduled radius, one folder per
      positive value of `core div 100`, and no folder at all when no radius is
      scheduled. */
  function FocalFolders(radii: seq<int>, cores: seq<int>): (dirs: set<(int, int)>)
    requires 0 < |cores|
    ensures |radii| == 0 ==> dirs == {}
    ensures forall r, d :: (r, d) in dirs ==>
              r in radii && 1 <= d && exists c :: c in cores && c / GridsPerFolder == d
    ensures forall r, c :: r in radii && c in cores && GridsPerFolder <= c ==> (r, c / GridsPerFolder) in dirs
  {
    set r, d | r in radii && d in FocalSubdirs(cores) :: (r, d)
  }

  /** The guard on the largest core number is redundant: without it the same folders
      would be created. */
  lemma FocalGuardRedundant(cores: seq<int>)
    requires 0 < |cores|
    ensures FocalSubdirs(cores) == set c | c in cores && c / GridsPerFolder > 0 :: c / GridsPerFolder
  {
    if MaxCore(cores) <= 99 {
      forall c | c in cores ensures c / GridsPerFolder <= 0 {
        var i :| 0 <= i < |cores| && cores[i] == c;
      }
    }
  }
}

=== FILE: wrappers.dfy ===
/** Failure-compatible carriers used across the model: a pixel value that may be
    NoData, and the outcome of a run that may abort with an error. */
module Wrappers {

  /** A value that may be absent; for raster cells, `None` is NoData. */
  datatype Option<+T> = None | Some(value: T)

  /** The result of an operation that either succeeds or stops with an error. */
  datatype Result<+T, +E> = Ok(value: T) | Err(error: E)
}
